=== FILE: README.md ===
# StableFluids frame pipeline: a verified model

This project models the control side of StableFluids' `Fluid2` component and
the pixel tally of `TextureComparer`. The numerical compute kernels are treated
as opaque.

## The model

- **The frame program.** Each frame is a fixed sequence of steps over sixteen
  render textures:
  - density `D0..D3`, velocity `V0..V3`, temperature `T1..T3`, fuel `F1..F3`;
  - two colour buffers.

  The GPU state (`Gpu.State`) has the following parts:
  - a slot table from each `VFB` field to the texture it references;
  - the contents of each texture, as symbolic terms (`Gpu.Content`: `AddSrc`,
    `Diffuse`, `Advect`, `ProjSetup`, `Relax`, `ProjFinish`, `Seeded`), with
    each kernel an uninterpreted constructor over what it reads;
  - the per-kernel parameter bindings made by `SetTexture`. A binding
    captures the texture object the slot references at that moment, not the
    slot;
  - the float uniforms the frame sets, as tags;
  - a log of every dispatch: the kernel, the textures it read and the texture
    it wrote.

  The state invariant `Gpu.Valid` says two things. No two slots share a texture,
  and no logged dispatch wrote a texture bound to one of its input parameters.
  ProjectionFinish's `V_out` is its output, not an input parameter: that
  kernel reads and updates `V_out` in place, and the invariant allows it.
- **The steps.**
  - `SetTexture` and `CopyTexture` are total.
  - `Dispatch` fails with `Unbound` exactly when a parameter of the kernel was
    never bound. Otherwise it overwrites the bound output and logs the launch.
  - The recurring pass shapes live in `Passes`: source pass, diffusion
    ping-pong, advection, projection setup, relaxation ping-pong and finish.
    The four update phases and `EndUpdate` live in `Fluid`.
  - Allocation, the per-frame `Update` with its mode keys, and runs of many
    frames live in `Simulation`.
- **The integer logic.**
  - C#'s unchecked 32-bit `int` and truncating division are in `Numeric`.
  - The tile-aligned grid size and `OnValidate` are in `Geometry`.
  - Texture-format choice is in `Buffers`.
  - The key-to-mode chain and the source-strength gating are in `Modes`.
  - `TextureComparer`'s array sizing and tally loop are in `Comparer`.

The model keeps three behaviours of the code as written:

1. The velocity diffusion loop never binds `D_in`. It reads the texture that
   `UpdateDensity` bound to `D_in` at Assets/Fluid2.cs:474: the density source
   of the same frame. `Fluid.PhasesDone` and `Fluid.TickDone` state this
   (`Diffused(ad, …)` with `ad` the source-added density).
2. The second projection setup still runs with `h = 1 / height`. Only the
   second finish runs with `h = height`.
3. `UpdateFuel` writes only `F2` from `F1`. Nothing writes `F1`, so every
   frame starts its fuel from the same contents (`Simulation.Run`).

The code also does the following, and the model does the same:

- Fuel only gets a source added. It is not diffused or advected.
- The velocity update runs projection, advection, projection: one pressure
  solve before the advection and one after it.
- The second projection setup keeps `h = 1 / height`.
- `ProjectionFinish` binds only `H_in` and `V_out`, so it is modelled as
  updating `V_out` in place. It reads the velocity it corrects from `V_out`'s
  current contents.
- `CreateVelocityField` writes the texture bound to `V_in`.

## Model

| member | source | states |
|---|---|---|
| Numeric.Wrap32 | Assets/Fluid2.cs:78 | Unchecked 32-bit arithmetic: the result is congruent to the exact value modulo 2^32, and a value already in range is unchanged |
| Numeric.CsDiv | Assets/Fluid2.cs:77-78 | C# integer division truncates toward zero. The remainder has the sign of the dividend and is smaller than the divisor, and the quotient is no larger in magnitude than the dividend |
| Geometry.ClampResolution | Assets/Fluid2.cs:128-131 | The validated resolution is at least 8 and at least the configured one. It equals the configured one when that is 8 or more, and is 8 otherwise |
| Geometry.ClampIdempotent | Assets/Fluid2.cs:130 | Validating twice gives the same resolution as validating once |
| Geometry.ThreadCount | Assets/Fluid2.cs:77-78 | For `0 <= x <= MaxInt32 - 7`, where `x + 7` does not wrap, `(x + 7) / 8` is the ceiling of x / 8: `n*8 <= x+7 < n*8+8` |
| Geometry.Tiled | Assets/Fluid2.cs:80-81 | For `0 <= x <= MaxInt32 - 7`, thread groups times 8 is a multiple of 8 that covers x with less than one tile of padding |
| Geometry.ThreadCountX | Assets/Fluid2.cs:77 | For `0 <= R <= MaxInt32 - 7`, where `R + 7` does not wrap, the horizontal thread-group count is the ceiling of the resolution over 8 |
| Geometry.ResolutionX | Assets/Fluid2.cs:80 | For `0 <= R <= MaxInt32 - 7`, the grid width is a multiple of 8 in `[R, R + 8)` |
| Geometry.ScaledHeight | Assets/Fluid2.cs:78 | For a positive W and `0 <= R * H <= MaxInt32` (the product is non-negative and does not wrap), `R * H / W` is the floor of the aspect-scaled resolution |
| Geometry.ThreadCountY | Assets/Fluid2.cs:78 | For the aspect-scaled resolution q with `0 <= q <= MaxInt32 - 7`, the vertical thread-group count is the ceiling of q over 8 |
| Geometry.ResolutionY | Assets/Fluid2.cs:81 | For the aspect-scaled resolution q with `0 <= q <= MaxInt32 - 7`, the grid height is a multiple of 8 in `[q, q + 8)` |
| Geometry.ValidatedWidth | Assets/Fluid2.cs:77-81 | For every configured resolution R, once clamped, the grid width is a positive multiple of 8 with `8 <= R' <= width < R' + 8` |
| Geometry.ValidatedHeight | Assets/Fluid2.cs:77-81 | With the clamped resolution R', a positive W and `R'*H <= MaxInt32 - 7`: `q = R'*H/W` satisfies `q*W <= R'*H`, and the grid height is a multiple of 8 in `[q, q + 8)` |
| Buffers.AllocateBuffer | Assets/Fluid2.cs:109-122 | RHalf exactly for 1 component and RGHalf exactly for 2. For 1 to 4 components it is the narrowest format that holds them. A zero width or height becomes the grid's (ResolutionX, ResolutionY), and a non-zero one is kept |
| Modes.NextMode | Assets/Fluid2.cs:229-243 | If a mode key is down, the result is a selected mode of highest priority (F over T over D over V). With no mode key down, the mode is kept |
| Modes.NextModeIdempotent | Assets/Fluid2.cs:229-243 | Pressing the same keys again selects the same mode |
| Modes.SourceStrength | Assets/Fluid2.cs:284-288 | A scalar field's strength is on iff the mode is that field's and button 0 is held (likewise at 305-309 and 461-465). Velocity's is on iff button 1 is held (357-361). An active strength is the field's own knob |
| Modes.AtMostOneScalarSource | Assets/Fluid2.cs:305-309 | Two scalar fields that both receive a source in the same frame are the same field |
| Modes.VelocityForceIgnoresMode | Assets/Fluid2.cs:357-361 | The velocity force is the same whatever the mode and button 0 |
| Gpu.CopyTexture | Assets/Fluid2.cs:314 | The destination slot shows the source slot's contents. No other texture, no slot reference, no binding and no log entry changes |
| Gpu.Dispatch | Assets/Fluid2.cs:311 | Fails iff a parameter of the kernel was never bound, naming an unbound one. Otherwise it appends one launch recording the bound inputs and output. The output texture receives the kernel's result over the bound inputs, and no other texture changes |
| Gpu.SetTexture | Assets/Fluid2.cs:281-282 | Binding a parameter through a slot records the texture that slot references now. Every other binding, the slots, the contents, the uniforms and the log are unchanged |
| Gpu.DispatchKeepsValid | Assets/Fluid2.cs:311 | A dispatch whose output binding differs from every input binding succeeds and keeps the invariant that no dispatch writes a texture bound to one of its input parameters |
| Passes.SweepLast | Assets/Fluid2.cs:320-329 | One more diffusion half-step diffuses the previous half-step's result |
| Passes.RelaxLast | Assets/Fluid2.cs:394-405 | One more relaxation relaxes the previous result |
| Passes.SourcePass | Assets/Fluid2.cs:279-290 | The source pass logs one AddSource reading `src` and writing a different texture, `out`. `out` receives the source-added input, and nothing else changes |
| Passes.DiffusionHalfStep | Assets/Fluid2.cs:480-482 | One Diffusion dispatch with D_out, D_gsbuff and D_in three different textures. D_out receives the relaxation of D_gsbuff against D_in, and D_in stays bound |
| Passes.DiffusionIteration | Assets/Fluid2.cs:480-486 | The first buffer gets one half-step, and the second gets the next half-step from the first |
| Passes.DiffusionLoop | Assets/Fluid2.cs:478-487 | After n iterations, the post-diffusion buffer (D2/T2/V2) holds the 2n-th half-step and the other buffer the one before. The log gains only Diffusion launches, each reading the bound D_in and one buffer and writing the other buffer. The two buffers differ from each other and from D_in, and D_in and every other texture are untouched |
| Passes.AdvectPass | Assets/Fluid2.cs:490-494 | Advection writes a texture distinct from both V_in and D_in. It receives the field moved along the velocity, and nothing else changes |
| Passes.ProjectionSetupPass | Assets/Fluid2.cs:387-389 | H_out receives the potential set up from V_in with the current `h`, and H_out differs from V_in |
| Passes.ProjectionFinishPass | Assets/Fluid2.cs:409-411 | The velocity in V_out is corrected in place by H_in's potential with the current `h` |
| Passes.RelaxHalfStep | Assets/Fluid2.cs:396-399 | One Projection dispatch with `H_in != H_out`. After the copy back, both buffers hold the relaxed potential |
| Passes.RelaxIteration | Assets/Fluid2.cs:396-404 | After one iteration, V1 and V3 both hold the doubly relaxed potential |
| Passes.RelaxLoop | Assets/Fluid2.cs:394-405 | After n iterations, V1 and V3 hold equal contents: the potential relaxed 2n times |
| Fluid.SourceAndDiffuse | Assets/Fluid2.cs:455-487 | The source-added field ends in the previous-frame slot, the 20-half-step diffusion in the post slot and the 19th half-step in the buffer. D_in is left bound to the previous-frame slot's texture |
| Fluid.UpdateTemp | Assets/Fluid2.cs:297-337 | T1 holds the source-added temperature, T3 the diffused one, and T2 the diffused one advected along the V1 of the phase's start. No other slot changes |
| Fluid.UpdateFuel | Assets/Fluid2.cs:276-295 | One dispatch: F2 receives F1 plus source. F1, F3 and every other slot are unchanged |
| Fluid.UpdateDensity | Assets/Fluid2.cs:452-495 | D1 holds the source-added density, D0 the diffused one, D2 its advection along V1 and D3 the 19th half-step. D_in stays bound to D1's texture, and no non-density slot changes |
| Fluid.VelocitySourceAndDiffuse | Assets/Fluid2.cs:350-382 | V2 receives the diffusion of the forced velocity against whatever D_in was bound to before, since the loop never rebinds it. `h` is untouched |
| Fluid.PressureSolve | Assets/Fluid2.cs:385-405 | V1 and V3 end with the potential set up from V2 and relaxed 20 times |
| Fluid.VelocityFirstProjection | Assets/Fluid2.cs:350-411 | The first projection runs setup and finish with `h = 1/height`, leaving the projected velocity in V2 and the potential in V1 and V3 |
| Fluid.UpdateVelocity | Assets/Fluid2.cs:339-450 | V0 holds the first projected velocity u, and V2 the advection of u along itself projected with setup `1/height` and finish `height`. V1 and V3 hold the second potential, `h` ends as `height`, and no other slot changes |
| Fluid.EndUpdate | Assets/Fluid2.cs:260-274 | Exactly D1/D2 and T1/T2 exchange references. Exactly V1's texture changes contents, to V2's. Bindings, uniforms and the log are untouched |
| Fluid.SwapDistinct | Assets/Fluid2.cs:262-266 | Exchanging two references keeps all slots on distinct textures |
| Fluid.EndUpdateKeepsValid | Assets/Fluid2.cs:260-274 | The rotation preserves the frame invariant |
| Fluid.EndUpdateSwaps | Assets/Fluid2.cs:264-270 | Seen through the slots, D1/D2 and T1/T2 exchange contents |
| Fluid.EndUpdateCopies | Assets/Fluid2.cs:272-273 | V1 and V2 both show V2's contents. D0, D3, V0, V3, T3, F1..F3 and the colour buffers are untouched |
| Fluid.RotateParity | Assets/Fluid2.cs:264-270 | After an even number of rotations every slot is back on its texture. After an odd number, D1/D2 and T1/T2 are exchanged |
| Fluid.BindingFollowsTexture | Assets/Fluid2.cs:260-274 | A binding made through a slot keeps naming the same texture across EndUpdate. After the rotation, a binding made through D1 names D2's texture and no longer D1's (likewise D2, T1, T2); through any other slot it still names that slot's texture |
| Fluid.ScalarPhases | Assets/Fluid2.cs:249-253 | Temperature, then fuel, then density. Both advections read the frame's starting V1, and velocity is untouched |
| Fluid.Phases | Assets/Fluid2.cs:249-255 | The four phases in source order append one frame's worth of launches after the earlier log, which is kept, and leave every slot as PhasesDone describes. Velocity diffusion reads the source-added density |
| Fluid.Tick | Assets/Fluid2.cs:249-257 | One frame keeps the invariant and the earlier log, appends a frame's launches, rotates the slot table, and leaves every one of the sixteen slots with the contents TickDone gives |
| Simulation.AllocateTextureBuffers | Assets/Fluid2.cs:146-179 | For a non-zero screen width: sixteen buffers in slot order, each with its component count's format. The simulation buffers get the grid size. The colour buffers get the screen width, and the screen height or the grid height when that is zero. V1 and V2 are seeded by two logged CreateVelocityField launches, and all else is zero |
| Simulation.Update | Assets/Fluid2.cs:216-258 | A stopped simulation is unchanged. Otherwise the mode keys are applied first, and the frame runs with strengths gated by the new mode, appending its launches to the kept log |
| Simulation.ModeAfterSelected | Assets/Fluid2.cs:229-243 | After any number of frames, the mode is the starting mode or one whose key was pressed in some frame |
| Simulation.Run | Assets/Fluid2.cs:216-258 | Over many frames: the invariant holds, F1 never changes, the mode follows the keys, and the earlier log is kept while a frame's launches are appended per frame. The slot table is restored after an even number of frames |
| Comparer.CountChangedIsCardinality | Assets/TextureComparer.cs:72-82 | The running count of positive entries is the number of indices flagged changed, and the rest are exactly the zero-or-negative indices |
| Comparer.Tally | Assets/TextureComparer.cs:68-84 | numChanged is the number of positive entries and numUnchanged the number of entries `<= 0`. They sum to data.Length, and data, a value, is not modified |
| Comparer.SetOriginalTexture | Assets/TextureComparer.cs:28-37 | `data` has height*width entries and `colors` four times that, both in 32-bit arithmetic. The two array allocations fail exactly when a wrapped length is negative |
| Comparer.SizingPerPixel | Assets/TextureComparer.cs:28-37 | When `h*w*4` fits in 32 bits, the sizing succeeds with one data entry per pixel and four colour floats per entry |

## Left out

- Compute-shader kernel bodies (AddSource, Diffusion, Advection,
  CreateVelocityField, ProjectionSetup, Projection, ProjectionFinish, Compare):
  their source is not part of this model, so each is an uninterpreted term
  constructor.
- Float values: Alpha, Beta, dt, dx, `h` and the strengths are tags (`Rate`,
  `HCoef`, `Strength`). Half-precision arithmetic is not modelled.
- The `SourceOrigin`, `Time` and `DeltaTime` uniforms are not recorded, since
  they depend on the mouse and the clock.
- Thread-group counts passed to `Dispatch` are not recorded in a launch.
- The grid size (the ResolutionX and ResolutionY properties) and the screen
  size are parameters of AllocateBuffer and AllocateTextureBuffers, not
  read from Unity. The Geometry functions state how the grid size is
  derived from the resolution and the screen.
- Unity plumbing is not modelled: Input, Screen, Time, Material,
  Graphics.Blit, OnRenderImage, Start, BeginSimulation, OnDestroy,
  DestroyTextures, SetInitial, FindObjectOfType and Debug.Log. Screen size and
  key and button state are parameters instead.
- The contents of a newly created render texture are modelled as `Zero`.
  Unity does not specify them.
- `RenderTexture` depth and `enableRandomWrite` are not modelled; they do not
  affect the buffer discipline.
- Assets/TextureGrabber.cs is not part of this model: it is camera and
  render-target plumbing.
- The commented-out vorticity confinement (Assets/Fluid2.cs:341-348) is
  not modelled.
- The ComputeBuffer upload and readback in DoCompare and the Compare
  dispatch are not modelled: `data` is a parameter holding whatever was read
  back.
- Simulation.AllocateTextureBuffers: requires a non-zero screen width. With
  a zero width, the first AllocateBuffer call reads ResolutionY, which
  divides by Screen.width (Assets/Fluid2.cs:78) and throws
  DivideByZeroException before any buffer exists.
- Geometry.ScaledHeight: requires a positive screen width, and so do
  ThreadCountY, ResolutionY and ValidatedHeight. A zero width throws
  DivideByZeroException at Assets/Fluid2.cs:78. Unity never reports a
  negative width.
- Only one Fluid2 instance is modelled. The VFB slots and EndUpdate are
  static (Assets/Fluid2.cs:84-103, 260), so every instance shares one slot
  table, and a second instance would allocate over and rotate the first's
  textures.
- Comparer.SetOriginalTexture: models only the two array allocations. The
  two ComputeBuffer constructions (Assets/TextureComparer.cs:30, 39) are not
  modelled, so neither is their failure on a zero count: a texture with no
  pixels fails at line 30. Nor is the partial update when a later line
  throws: by line 37, originalTexture, data, buffer and bufferTex have
  already been replaced.
- Geometry.ThreadCountX: the ceiling bound is stated only where `x + 7`
  does not wrap, and likewise for ResolutionX, ThreadCountY and
  ResolutionY. OnValidate (Assets/Fluid2.cs:130) lets a resolution up to
  MaxInt32 through; there the functions compute the wrapped, negative count
  the code computes, for which no bound holds.
- Geometry.ValidatedWidth: stated only for resolutions up to MaxInt32 - 7.
  Above that, `R + 7` wraps and the width is not a covering tile.
- Geometry.ValidatedHeight: stated only when the clamped resolution times the
  screen height is at most MaxInt32 - 7. Above MaxInt32 the product wraps,
  and close to it `q + 7` can wrap.
- Comparer.SizingPerPixel: stated only when `h*w*4` fits in 32 bits. Larger
  textures give wrapped lengths, which only SetOriginalTexture's own
  contract describes.
- Simulation.Run: states the invariant, F1, the mode, the log and the
  slot table across frames. It does not state every slot's contents after
  many frames; Simulation.Update states them for each frame.

=== FILE: buffers.dfy ===
/** Render-texture allocation of Fluid2 (Assets/Fluid2.cs:109-122): the format
    is chosen from the number of components, and a zero width or height falls
    back to the simulation grid size. */
module Buffers {
  import opened Numeric
  import opened Geometry

  /** The half-precision render-texture formats the simulation uses. */
  datatype TextureFormat = RHalf | RGHalf | ARGBHalf

  function Channels(f: TextureFormat): nat {
    match f
    case RHalf => 1
    case RGHalf => 2
    case ARGBHalf => 4
  }

  /** What a created render texture looks like to the rest of the program. */
  datatype Desc = Desc(width: Int32, height: Int32, format: TextureFormat)

  /** AllocateBuffer(componentCount, width = 0, height = 0). The format is
      the smallest of the three that holds the requested components (for 1 to
      4 components); only a zero width or height is replaced by the grid
      size, which the C# code reads from the ResolutionX and ResolutionY
      properties and the model takes as `grid`. */
  method AllocateBuffer(componentCount: int, width: Int32, height: Int32, grid: Size)
    returns (d: Desc)
    ensures d.format == RHalf <==> componentCount == 1
    ensures d.format == RGHalf <==> componentCount == 2
    ensures 1 <= componentCount <= 4 ==>
              componentCount <= Channels(d.format) &&
              forall f :: componentCount <= Channels(f) ==> Channels(d.format) <= Channels(f)
    ensures d.width == if width != 0 then width else grid.width
    ensures d.height == if height != 0 then height else grid.height
  {
    var format := ARGBHalf;
    if componentCount == 1 {
      format := RHalf;
    }
    if componentCount == 2 {
      format := RGHalf;
    }
    var w, h := width, height;
    if w == 0 {
      w := grid.width;
    }
    if h == 0 {
      h := grid.height;
    }
    d := Desc(w, h, format);
  }
}

=== FILE: comparer.dfy ===
/** The integer side of TextureComparer (Assets/TextureComparer.cs): the
    sizes of the readback arrays chosen by SetOriginalTexture and the tally
    of changed pixels in DoCompare. The Compare kernel that fills `data` is
    not part of this model: `data` is whatever it read back. */
module Comparer {
  import opened Numeric
  import opened Wrappers

  /** Indices of pixels the Compare kernel flagged as changed (a positive entry). */
  ghost function ChangedIndices(data: seq<Int32>): set<int> {
    set i | 0 <= i < |data| && data[i] > 0
  }

  /** Indices of pixels counted as unchanged: zero and negative entries alike. */
  ghost function UnchangedIndices(data: seq<Int32>): set<int> {
    set i | 0 <= i < |data| && data[i] <= 0
  }

  /** Number of positive entries, scanning from the front. */
  function CountChanged(data: seq<Int32>): nat
    decreases |data|
  {
    if |data| == 0 then 0
    else CountChanged(data[..|data| - 1]) + (if data[|data| - 1] > 0 then 1 else 0)
  }

  /** The running count is the number of flagged indices, and every other
      index is counted as unchanged. */
  lemma {:induction false} CountChangedIsCardinality(data: seq<Int32>)
    ensures CountChanged(data) == |ChangedIndices(data)|
    ensures |data| - CountChanged(data) == |UnchangedIndices(data)|
    decreases |data|
  {
    if |data| == 0 {
      assert ChangedIndices(data) == {};
      assert UnchangedIndices(data) == {};
    } else {
      var n := |data| - 1;
      var init := data[..n];
      CountChangedIsCardinality(init);
      assert forall i :: 0 <= i < n ==> data[i] == init[i];
      if data[n] > 0 {
        assert ChangedIndices(data) == ChangedIndices(init) + {n};
        assert UnchangedIndices(data) == UnchangedIndices(init);
      } else {
        assert ChangedIndices(data) == ChangedIndices(init);
        assert UnchangedIndices(data) == UnchangedIndices(init) + {n};
      }
    }
  }

  /** The tally loop of DoCompare (Assets/TextureComparer.cs:68-84). A C#
      array has at most MaxInt32 entries, so neither 32-bit counter can wrap.
      `data` is a value here, so the loop cannot change it. */
  method Tally(data: seq<Int32>) returns (numChanged: Int32, numUnchanged: Int32)
    requires |data| <= MaxInt32
    ensures numChanged == |ChangedIndices(data)|
    ensures numUnchanged == |UnchangedIndices(data)|
    ensures numChanged + numUnchanged == |data|
  {
    numChanged, numUnchanged := 0, 0;
    for i := 0 to |data|
      invariant numChanged == CountChanged(data[..i])
      invariant numChanged + numUnchanged == i
    {
      assert data[..i + 1][..i] == data[..i];
      if data[i] > 0 {
        numChanged := numChanged + 1;
      } else {
        numUnchanged := numUnchanged + 1;
      }
    }
    assert data[..|data|] == data;
    CountChangedIsCardinality(data);
  }

  /** The two arrays SetOriginalTexture allocates. */
  datatype Sizing = Sizing(dataLength: nat, colorsLength: nat)

  /** `new Int32[n]` and `new float[n]` throw on a negative length. */
  datatype SizeError = NegativeDataLength | NegativeColorsLength

  /** The array sizing of SetOriginalTexture (Assets/TextureComparer.cs:28,
      37): `data` gets `height * width` entries and `colors`
      `height * width * 4`, both products in unchecked 32-bit arithmetic. The
      only failures modelled are those of the two array allocations. */
  function SetOriginalTexture(width: Int32, height: Int32): (r: Result<Sizing, SizeError>)
    ensures r.Success? ==> r.value.dataLength == Wrap32(height * width)
    ensures r.Success? ==> r.value.colorsLength == Wrap32(Wrap32(height * width) * 4)
    ensures r.Failure? <==> Wrap32(height * width) < 0 || Wrap32(Wrap32(height * width) * 4) < 0
  {
    var n := Wrap32(height * width);
    var m := Wrap32(n * 4);
    if n < 0 then Failure(NegativeDataLength)
    else if m < 0 then Failure(NegativeColorsLength)
    else Success(Sizing(n, m))
  }

  /** For a texture whose pixel count times four fits in 32 bits, `data`
      holds one entry per pixel and `colors` four (one RGBA float each). */
  lemma SizingPerPixel(width: Int32, height: Int32)
    requires 0 <= width && 0 <= height && height * width * 4 <= MaxInt32
    ensures SetOriginalTexture(width, height).Success?
    ensures SetOriginalTexture(width, height).value.dataLength == height * width
    ensures SetOriginalTexture(width, height).value.colorsLength
         == 4 * SetOriginalTexture(width, height).value.dataLength
  {
    var p := height * width;
    assert 0 <= p by {
      NonNegProduct(height, width);
    }
    assert Wrap32(p) == p;
    assert Wrap32(p * 4) == p * 4;
  }
}

=== FILE: fluid.dfy ===
/** The per-frame program of Fluid2 (Assets/Fluid2.cs:216-495): the four
    update phases in their fixed order and the end-of-frame rotation. */
module Fluid {
  import opened Wrappers
  import opened Modes
  import opened Gpu
  import opened Passes

  /** The field after the diffusion ping-pong of a frame: `2 * Iterations`
      half-steps, each reading `x0` as the pre-diffusion field. */
  function Diffused(x0: Content, g: Content, rate: Rate): Content {
    Sweep(x0, g, rate, 2 * Iterations)
  }

  /** Number of dispatches of UpdateTemp and of UpdateDensity. */
  const ScalarLaunches: nat := 2 * Iterations + 2

  /** Number of dispatches of UpdateVelocity: a source, a diffusion loop, two
      projections (setup, relaxation loop, finish) and an advection. */
  const VelocityLaunches: nat := 3 * (2 * Iterations) + 6

  /** The head shared by UpdateTemp and UpdateDensity (Assets/Fluid2.cs:300-329,
      455-487): add the source from `prev` into `post`, copy the source-added
      field into `prev` and `buf`, bind `prev` as D_in, set the diffusion rate
      and run the diffusion loop over `buf` and `post`. */
  method SourceAndDiffuse(s: State, prev: Slot, post: Slot, buf: Slot, strength: Strength)
    returns (r: State)
    requires Valid(s) && prev != post && prev != buf && post != buf
    ensures Steps(s, r, 2 * Iterations + 1)
    ensures (Diffusion, DIn) in r.bindings && r.bindings[(Diffusion, DIn)] == Tex(s, prev)
    ensures var a := AddSrc(Get(s, prev), strength, SourceDistance);
      r.contents == s.contents[Tex(s, prev) := a][Tex(s, post) := Diffused(a, a, DiffusionRate)]
                              [Tex(s, buf) := Sweep(a, a, DiffusionRate, 2 * Iterations - 1)]
  {
    ghost var a := AddSrc(Get(s, prev), strength, SourceDistance);
    SlotsDistinct(s, prev, post);
    SlotsDistinct(s, prev, buf);
    SlotsDistinct(s, post, buf);
    var s1 := SourcePass(s, post, prev, SourceDistance, strength);
    var s2 := CopyTexture(s1, post, prev);
    var s3 := CopyTexture(s2, post, buf);
    var s4 := SetTexture(s3, Diffusion, DIn, prev);
    var s5 := s4.(uniforms := s4.uniforms.(rate := DiffusionRate));
    assert s5.contents == s.contents[Tex(s, post) := a][Tex(s, prev) := a][Tex(s, buf) := a];
    r := DiffusionLoop(s5, buf, post, Iterations);
  }

  /** The density slots hold the same contents in `s` and `r`. */
  ghost predicate SameDensity(s: State, r: State) {
    Get(r, D0) == Get(s, D0) && Get(r, D1) == Get(s, D1) && Get(r, D2) == Get(s, D2) && Get(r, D3) == Get(s, D3)
  }

  /** The velocity slots hold the same contents in `s` and `r`. */
  ghost predicate SameVelocity(s: State, r: State) {
    Get(r, V0) == Get(s, V0) && Get(r, V1) == Get(s, V1) && Get(r, V2) == Get(s, V2) && Get(r, V3) == Get(s, V3)
  }

  /** The temperature slots hold the same contents in `s` and `r`. */
  ghost predicate SameTemp(s: State, r: State) {
    Get(r, T1) == Get(s, T1) && Get(r, T2) == Get(s, T2) && Get(r, T3) == Get(s, T3)
  }

  /** The fuel slots hold the same contents in `s` and `r`. */
  ghost predicate SameFuel(s: State, r: State) {
    Get(r, F1) == Get(s, F1) && Get(r, F2) == Get(s, F2) && Get(r, F3) == Get(s, F3)
  }

  /** The colour buffers hold the same contents in `s` and `r`. */
  ghost predicate SameColors(s: State, r: State) {
    Get(r, Color1) == Get(s, Color1) && Get(r, Color2) == Get(s, Color2)
  }

  /** A slot other than the three overwritten ones keeps its contents. */
  lemma Untouched3(s: State, r: State, sl: Slot, a: Slot, b: Slot, c: Slot, x: Content, y: Content, z: Content)
    requires Valid(s) && r.slots == s.slots && sl != a && sl != b && sl != c
    requires r.contents == s.contents[Tex(s, a) := x][Tex(s, b) := y][Tex(s, c) := z]
    ensures Get(r, sl) == Get(s, sl)
  {
    SlotsDistinct(s, sl, a);
    SlotsDistinct(s, sl, b);
    SlotsDistinct(s, sl, c);
  }

  /** A slot other than the four overwritten ones keeps its contents. */
  lemma Untouched4(s: State, r: State, sl: Slot, a: Slot, b: Slot, c: Slot, d: Slot,
                   w: Content, x: Content, y: Content, z: Content)
    requires Valid(s) && r.slots == s.slots && sl != a && sl != b && sl != c && sl != d
    requires r.contents == s.contents[Tex(s, a) := w][Tex(s, b) := x][Tex(s, c) := y][Tex(s, d) := z]
    ensures Get(r, sl) == Get(s, sl)
  {
    SlotsDistinct(s, sl, a);
    SlotsDistinct(s, sl, b);
    SlotsDistinct(s, sl, c);
    SlotsDistinct(s, sl, d);
  }

  /** Writing the three temperature slots leaves every other group as it was.
      This and the two lemmas after it list every untouched slot one call at
      a time, rather than by one quantified statement, to keep the solver's
      work small. */
  lemma TempWritten(s: State, r: State, x: Content, y: Content, z: Content)
    requires Valid(s) && r.slots == s.slots
    requires r.contents == s.contents[Tex(s, T1) := x][Tex(s, T2) := y][Tex(s, T3) := z]
    ensures Get(r, T1) == x && Get(r, T2) == y && Get(r, T3) == z
    ensures SameDensity(s, r) && SameVelocity(s, r) && SameFuel(s, r) && SameColors(s, r)
  {
    SlotsDistinct(s, T1, T2);
    SlotsDistinct(s, T1, T3);
    SlotsDistinct(s, T2, T3);
    Untouched3(s, r, D0, T1, T2, T3, x, y, z);
    Untouched3(s, r, D1, T1, T2, T3, x, y, z);
    Untouched3(s, r, D2, T1, T2, T3, x, y, z);
    Untouched3(s, r, D3, T1, T2, T3, x, y, z);
    Untouched3(s, r, V0, T1, T2, T3, x, y, z);
    Untouched3(s, r, V1, T1, T2, T3, x, y, z);
    Untouched3(s, r, V2, T1, T2, T3, x, y, z);
    Untouched3(s, r, V3, T1, T2, T3, x, y, z);
    Untouched3(s, r, F1, T1, T2, T3, x, y, z);
    Untouched3(s, r, F2, T1, T2, T3, x, y, z);
    Untouched3(s, r, F3, T1, T2, T3, x, y, z);
    Untouched3(s, r, Color1, T1, T2, T3, x, y, z);
    Untouched3(s, r, Color2, T1, T2, T3, x, y, z);
  }

  /** Writing the four density slots leaves every other group as it was. */
  lemma DensityWritten(s: State, r: State, w: Content, x: Content, y: Content, z: Content)
    requires Valid(s) && r.slots == s.slots
    requires r.contents == s.contents[Tex(s, D0) := w][Tex(s, D1) := x][Tex(s, D2) := y][Tex(s, D3) := z]
    ensures Get(r, D0) == w && Get(r, D1) == x && Get(r, D2) == y && Get(r, D3) == z
    ensures SameVelocity(s, r) && SameTemp(s, r) && SameFuel(s, r) && SameColors(s, r)
  {
    SlotsDistinct(s, D0, D1);
    SlotsDistinct(s, D0, D2);
    SlotsDistinct(s, D0, D3);
    SlotsDistinct(s, D1, D2);
    SlotsDistinct(s, D1, D3);
    SlotsDistinct(s, D2, D3);
    Untouched4(s, r, V0, D0, D1, D2, D3, w, x, y, z);
    Untouched4(s, r, V1, D0, D1, D2, D3, w, x, y, z);
    Untouched4(s, r, V2, D0, D1, D2, D3, w, x, y, z);
    Untouched4(s, r, V3, D0, D1, D2, D3, w, x, y, z);
    Untouched4(s, r, T1, D0, D1, D2, D3, w, x, y, z);
    Untouched4(s, r, T2, D0, D1, D2, D3, w, x, y, z);
    Untouched4(s, r, T3, D0, D1, D2, D3, w, x, y, z);
    Untouched4(s, r, F1, D0, D1, D2, D3, w, x, y, z);
    Untouched4(s, r, F2, D0, D1, D2, D3, w, x, y, z);
    Untouched4(s, r, F3, D0, D1, D2, D3, w, x, y, z);
    Untouched4(s, r, Color1, D0, D1, D2, D3, w, x, y, z);
    Untouched4(s, r, Color2, D0, D1, D2, D3, w, x, y, z);
  }

  /** Writing the four velocity slots leaves every other group as it was. */
  lemma VelocityWritten(s: State, r: State, w: Content, x: Content, y: Content, z: Content)
    requires Valid(s) && r.slots == s.slots
    requires r.contents == s.contents[Tex(s, V0) := w][Tex(s, V1) := x][Tex(s, V2) := y][Tex(s, V3) := z]
    ensures Get(r, V0) == w && Get(r, V1) == x && Get(r, V2) == y && Get(r, V3) == z
    ensures SameDensity(s, r) && SameTemp(s, r) && SameFuel(s, r) && SameColors(s, r)
  {
    SlotsDistinct(s, V0, V1);
    SlotsDistinct(s, V0, V2);
    SlotsDistinct(s, V0, V3);
    SlotsDistinct(s, V1, V2);
    SlotsDistinct(s, V1, V3);
    SlotsDistinct(s, V2, V3);
    Untouched4(s, r, D0, V0, V1, V2, V3, w, x, y, z);
    Untouched4(s, r, D1, V0, V1, V2, V3, w, x, y, z);
    Untouched4(s, r, D2, V0, V1, V2, V3, w, x, y, z);
    Untouched4(s, r, D3, V0, V1, V2, V3, w, x, y, z);
    Untouched4(s, r, T1, V0, V1, V2, V3, w, x, y, z);
    Untouched4(s, r, T2, V0, V1, V2, V3, w, x, y, z);
    Untouched4(s, r, T3, V0, V1, V2, V3, w, x, y, z);
    Untouched4(s, r, F1, V0, V1, V2, V3, w, x, y, z);
    Untouched4(s, r, F2, V0, V1, V2, V3, w, x, y, z);
    Untouched4(s, r, F3, V0, V1, V2, V3, w, x, y, z);
    Untouched4(s, r, Color1, V0, V1, V2, V3, w, x, y, z);
    Untouched4(s, r, Color2, V0, V1, V2, V3, w, x, y, z);
  }

  /** UpdateTemp (Assets/Fluid2.cs:297-337): add the temperature source into
      T2, diffuse with T1 as the pre-diffusion field and T3/T2 as ping-pong
      buffers, then advect the post-diffusion temperature along V1 into T2.
      Only the temperature slots change. */
  method UpdateTemp(s: State, strength: Strength) returns (r: State)
    requires Valid(s)
    ensures Steps(s, r, ScalarLaunches)
    ensures var a := AddSrc(Get(s, T1), strength, SourceDistance);
      var w := Diffused(a, a, DiffusionRate);
      && Get(r, T1) == a && Get(r, T2) == Advect(Get(s, V1), w) && Get(r, T3) == w
    ensures SameDensity(s, r) && SameVelocity(s, r) && SameFuel(s, r) && SameColors(s, r)
  {
    ghost var a := AddSrc(Get(s, T1), strength, SourceDistance);
    ghost var w := Diffused(a, a, DiffusionRate);
    var s1 := SourceAndDiffuse(s, T1, T2, T3, strength);
    var s2 := CopyTexture(s1, T2, T3);
    SlotsDistinct(s, T2, T3);
    SlotsDistinct(s, T1, T3);
    SlotsDistinct(s, T1, T2);
    SlotsDistinct(s, V1, T3);
    SlotsDistinct(s, V1, T1);
    SlotsDistinct(s, V1, T2);
    r := AdvectPass(s2, V1, T3, T2);
    StepsTrans(s, s1, r, 2 * Iterations + 1, 1);
    assert r.contents == s.contents[Tex(s, T1) := a][Tex(s, T2) := Advect(Get(s, V1), w)][Tex(s, T3) := w];
    TempWritten(s, r, a, Advect(Get(s, V1), w), w);
  }

  /** UpdateFuel (Assets/Fluid2.cs:276-295): only a source pass from F1 into
      F2; nothing else is dispatched, and F1 is not written. */
  method UpdateFuel(s: State, strength: Strength) returns (r: State)
    requires Valid(s)
    ensures Steps(s, r, 1) && KeepsBindings(s, r, AddSource)
    ensures Get(r, F2) == AddSrc(Get(s, F1), strength, SourceDistance)
    ensures Get(r, F1) == Get(s, F1) && Get(r, F3) == Get(s, F3)
    ensures SameDensity(s, r) && SameVelocity(s, r) && SameTemp(s, r) && SameColors(s, r)
  {
    r := SourcePass(s, F2, F1, SourceDistance, strength);
    forall sl: Slot | sl != F2
      ensures Get(r, sl) == Get(s, sl)
    {
      SlotsDistinct(s, sl, F2);
    }
  }

  /** UpdateDensity (Assets/Fluid2.cs:452-495): add the density source into
      D2, diffuse with D1 as the pre-diffusion field and D3/D2 as ping-pong
      buffers, copy the result to D0 and advect it along V1 into D2. The
      Diffusion kernel's D_in stays bound to D1's texture afterwards. Only
      the density slots change. */
  method UpdateDensity(s: State, strength: Strength) returns (r: State)
    requires Valid(s)
    ensures Steps(s, r, ScalarLaunches)
    ensures (Diffusion, DIn) in r.bindings && r.bindings[(Diffusion, DIn)] == Tex(s, D1)
    ensures var a := AddSrc(Get(s, D1), strength, SourceDistance);
      var w := Diffused(a, a, DiffusionRate);
      && Get(r, D0) == w && Get(r, D1) == a && Get(r, D2) == Advect(Get(s, V1), w)
      && Get(r, D3) == Sweep(a, a, DiffusionRate, 2 * Iterations - 1)
    ensures SameVelocity(s, r) && SameTemp(s, r) && SameFuel(s, r) && SameColors(s, r)
  {
    ghost var a := AddSrc(Get(s, D1), strength, SourceDistance);
    ghost var w := Diffused(a, a, DiffusionRate);
    ghost var b := Sweep(a, a, DiffusionRate, 2 * Iterations - 1);
    var s1 := SourceAndDiffuse(s, D1, D2, D3, strength);
    var s2 := CopyTexture(s1, D2, D0);
    SlotsDistinct(s, D0, D1);
    SlotsDistinct(s, D0, D2);
    SlotsDistinct(s, D0, D3);
    SlotsDistinct(s, V1, D0);
    SlotsDistinct(s, V1, D1);
    SlotsDistinct(s, V1, D2);
    SlotsDistinct(s, V1, D3);
    r := AdvectPass(s2, V1, D0, D2);
    StepsTrans(s, s1, r, 2 * Iterations + 1, 1);
    assert r.contents == s.contents[Tex(s, D0) := w][Tex(s, D1) := a]
                                   [Tex(s, D2) := Advect(Get(s, V1), w)][Tex(s, D3) := b];
    DensityWritten(s, r, w, a, Advect(Get(s, V1), w), b);
  }

  /** The velocity after a projection: the potential set up from `w` with
      scale `setupH`, relaxed `2 * Iterations` times, then applied to `w`
      with scale `finishH`. */
  function Projected(w: Content, setupH: HCoef, finishH: HCoef): Content {
    ProjFinish(RelaxN(ProjSetup(w, setupH), 2 * Iterations), w, finishH)
  }

  /** The first part of UpdateVelocity (Assets/Fluid2.cs:350-382): add the
      force from V1 into V2, copy it into V3, and diffuse over V3/V2. The loop
      never binds D_in: it reads whatever texture D_in is bound to on entry,
      which in a frame is the one UpdateDensity bound (Assets/Fluid2.cs:474). */
  method VelocitySourceAndDiffuse(s: State, strength: Strength) returns (r: State)
    requires DiffusionReady(s, V3, V2)
    ensures Steps(s, r, 2 * Iterations + 1)
    ensures r.uniforms.h == s.uniforms.h
    ensures var f := AddSrc(Get(s, V1), strength, ForceDistance);
      r.contents == s.contents[Tex(s, V2) := Diffused(DiffusionSource(s), f, VelocityRate)]
                              [Tex(s, V3) := Sweep(DiffusionSource(s), f, VelocityRate, 2 * Iterations - 1)]
  {
    ghost var f := AddSrc(Get(s, V1), strength, ForceDistance);
    SlotsDistinct(s, V1, V2);
    SlotsDistinct(s, V2, V3);
    var s1 := SourcePass(s, V2, V1, ForceDistance, strength);
    var s2 := CopyTexture(s1, V2, V3);
    var s3 := SetTexture(s2, Diffusion, DOut, V1);
    var s4 := s3.(uniforms := s3.uniforms.(rate := VelocityRate));
    assert DiffusionSource(s4) == DiffusionSource(s);
    assert s4.contents == s.contents[Tex(s, V2) := f][Tex(s, V3) := f];
    r := DiffusionLoop(s4, V3, V2, Iterations);
  }

  /** Projection setup from V2 into V3 with the current `h`, a copy of V3
      into V1, and the relaxation loop over V1/V3 (Assets/Fluid2.cs:386-405,
      424-442): V1 and V3 both end with the relaxed potential. */
  method PressureSolve(s: State) returns (r: State)
    requires Valid(s)
    ensures Steps(s, r, 2 * Iterations + 1) && r.uniforms == s.uniforms
    ensures var q := RelaxN(ProjSetup(Get(s, V2), s.uniforms.h), 2 * Iterations);
      r.contents == s.contents[Tex(s, V1) := q][Tex(s, V3) := q]
  {
    SlotsDistinct(s, V1, V3);
    SlotsDistinct(s, V2, V3);
    var s1 := ProjectionSetupPass(s, V2, V3);
    var s2 := CopyTexture(s1, V3, V1);
    r := RelaxLoop(s2, V1, V3, Iterations);
  }

  /** UpdateVelocity up to the first projection finish (Assets/Fluid2.cs:350-411):
      V2 holds the velocity projected with `h = 1 / height` throughout, and V1
      and V3 the relaxed potential. */
  method VelocityFirstProjection(s: State, strength: Strength) returns (r: State)
    requires DiffusionReady(s, V3, V2)
    ensures Steps(s, r, 4 * Iterations + 3)
    ensures r.uniforms.h == InvHeight
    ensures var f := AddSrc(Get(s, V1), strength, ForceDistance);
      var w := Diffused(DiffusionSource(s), f, VelocityRate);
      var q := RelaxN(ProjSetup(w, InvHeight), 2 * Iterations);
      r.contents == s.contents[Tex(s, V1) := q][Tex(s, V2) := Projected(w, InvHeight, InvHeight)]
                              [Tex(s, V3) := q]
  {
    SlotsDistinct(s, V1, V2);
    SlotsDistinct(s, V1, V3);
    SlotsDistinct(s, V2, V3);
    var s1 := VelocitySourceAndDiffuse(s, strength);
    var s2 := s1.(uniforms := s1.uniforms.(h := InvHeight));
    var s3 := PressureSolve(s2);
    r := ProjectionFinishPass(s3, V1, V2);
  }

  /** UpdateVelocity (Assets/Fluid2.cs:339-450). After the diffusion, the
      velocity is projected with `h = 1 / height` for both setup and finish,
      copied into V0 and V1, advected along itself into V2, and projected
      again: the second setup still uses `1 / height`, and only the second
      finish uses `h = height`. */
  method UpdateVelocity(s: State, strength: Strength) returns (r: State)
    requires DiffusionReady(s, V3, V2)
    ensures Steps(s, r, VelocityLaunches)
    ensures r.uniforms.h == Height
    ensures var f := AddSrc(Get(s, V1), strength, ForceDistance);
      var u := Projected(Diffused(DiffusionSource(s), f, VelocityRate), InvHeight, InvHeight);
      var m := Advect(u, u);
      var q := RelaxN(ProjSetup(m, InvHeight), 2 * Iterations);
      && Get(r, V0) == u && Get(r, V1) == q && Get(r, V2) == Projected(m, InvHeight, Height)
      && Get(r, V3) == q
    ensures SameDensity(s, r) && SameTemp(s, r) && SameFuel(s, r) && SameColors(s, r)
  {
    ghost var f := AddSrc(Get(s, V1), strength, ForceDistance);
    ghost var u := Projected(Diffused(DiffusionSource(s), f, VelocityRate), InvHeight, InvHeight);
    ghost var m := Advect(u, u);
    ghost var q := RelaxN(ProjSetup(m, InvHeight), 2 * Iterations);
    SlotsDistinct(s, V0, V1);
    SlotsDistinct(s, V0, V2);
    SlotsDistinct(s, V0, V3);
    SlotsDistinct(s, V1, V2);
    SlotsDistinct(s, V1, V3);
    SlotsDistinct(s, V2, V3);
    var s1 := VelocityFirstProjection(s, strength);
    var s2 := CopyTexture(s1, V2, V0);
    var s3 := CopyTexture(s2, V2, V1);
    var s4 := AdvectPass(s3, V1, V0, V2);
    assert s4.contents == s.contents[Tex(s, V0) := u][Tex(s, V1) := u][Tex(s, V2) := Advect(u, u)]
                                    [Tex(s, V3) := Get(s1, V3)];
    StepsTrans(s, s1, s4, 4 * Iterations + 3, 1);
    var s5 := PressureSolve(s4);
    var s6 := s5.(uniforms := s5.uniforms.(h := Height));
    r := ProjectionFinishPass(s6, V1, V2);
    StepsTrans(s, s4, s6, 4 * Iterations + 4, 2 * Iterations + 1);
    StepsTrans(s, s6, r, 6 * Iterations + 5, 1);
    assert r.contents == s.contents[Tex(s, V0) := u][Tex(s, V1) := q]
                                   [Tex(s, V2) := Projected(m, InvHeight, Height)][Tex(s, V3) := q];
    VelocityWritten(s, r, u, q, Projected(m, InvHeight, Height), q);
  }

  /** Exchanges the textures two slots reference. */
  function Swap(t: SlotTable, a: Slot, b: Slot): SlotTable {
    t[a := t[b]][b := t[a]]
  }

  /** The end-of-frame exchange of the D1/D2 and T1/T2 references. */
  function Rotate(t: SlotTable): SlotTable {
    Swap(Swap(t, D1, D2), T1, T2)
  }

  /** EndUpdate (Assets/Fluid2.cs:260-274): swap the D1/D2 and T1/T2
      references and copy V2's contents into V1. Exactly those two slot pairs
      change reference, exactly V1's texture changes contents, and nothing
      else moves. */
  function EndUpdate(s: State): (r: State)
    ensures Tex(r, D1) == Tex(s, D2) && Tex(r, D2) == Tex(s, D1)
    ensures Tex(r, T1) == Tex(s, T2) && Tex(r, T2) == Tex(s, T1)
    ensures forall sl: Slot :: sl != D1 && sl != D2 && sl != T1 && sl != T2 ==> Tex(r, sl) == Tex(s, sl)
    ensures r.contents == s.contents[Tex(s, V1) := Get(s, V2)]
    ensures r.bindings == s.bindings && r.uniforms == s.uniforms && r.log == s.log
  {
    var t := s.(slots := Rotate(s.slots));
    CopyTexture(t, V2, V1)
  }

  /** Swapping two slots keeps the slots referencing distinct textures. */
  lemma SwapDistinct(t: SlotTable, a: Slot, b: Slot)
    requires Distinct(t)
    ensures Distinct(Swap(t, a, b))
  {
    var u := Swap(t, a, b);
    forall i, j | 0 <= i < j < TextureCount
      ensures u[i] != u[j]
    {
      var i' := if i == a then b else if i == b then a else i;
      var j' := if j == a then b else if j == b then a else j;
      assert u[i] == t[i'] && u[j] == t[j'] && i' != j';
      if i' < j' {
        assert t[i'] != t[j'];
      } else {
        assert t[j'] != t[i'];
      }
    }
  }

  /** The rotation keeps the frame invariant. */
  lemma EndUpdateKeepsValid(s: State)
    requires Valid(s)
    ensures Valid(EndUpdate(s))
  {
    SwapDistinct(s.slots, D1, D2);
    SwapDistinct(Swap(s.slots, D1, D2), T1, T2);
  }

  /** The slot EndUpdate exchanges `sl` with, or `sl` itself when it is not
      one of the two rotated pairs. */
  function Partner(sl: Slot): Slot {
    if sl == D1 then D2 else if sl == D2 then D1
    else if sl == T1 then T2 else if sl == T2 then T1
    else sl
  }

  /** A binding names a texture, not a slot (Assets/Fluid2.cs:84-103,
      260-274): a texture bound through slot `sl` is, after EndUpdate, the
      texture of the slot `sl` was exchanged with, and it is still the texture
      of `sl` exactly when `sl` was not rotated. So a D_in bound through D1
      before EndUpdate names D2's texture after it. */
  lemma BindingFollowsTexture(s: State, k: Kernel, p: Param, sl: Slot)
    requires Valid(s)
    ensures var r := EndUpdate(SetTexture(s, k, p, sl));
      && r.bindings[(k, p)] == Tex(r, Partner(sl))
      && (r.bindings[(k, p)] == Tex(r, sl) <==> Partner(sl) == sl)
  {
    var t := SetTexture(s, k, p, sl);
    EndUpdateKeepsValid(t);
    if Partner(sl) != sl {
      SlotsDistinct(EndUpdate(t), sl, Partner(sl));
    }
  }

  /** Rotating twice restores every slot's reference. */
  lemma RotateTwice(t: SlotTable)
    ensures Rotate(Rotate(t)) == t
  {
  }

  /** The slot table after `n` end-of-frame rotations. */
  function RotateN(t: SlotTable, n: nat): SlotTable {
    if n == 0 then t else Rotate(RotateN(t, n - 1))
  }

  /** After an even number of frames every slot is back on its own texture,
      after an odd number D1/D2 and T1/T2 are exchanged. */
  lemma {:induction false} RotateParity(t: SlotTable, n: nat)
    ensures RotateN(t, n) == if n % 2 == 0 then t else Rotate(t)
  {
    if n > 0 {
      RotateParity(t, n - 1);
      RotateTwice(t);
    }
  }

  /** Number of dispatches in one frame. */
  const FrameLaunches: nat := 2 * ScalarLaunches + 1 + VelocityLaunches

  /** The contents the temperature, fuel and density slots hold after the
      three scalar phases of a frame that starts in `s`: temperature and
      density are advected along the V1 of the frame start, and fuel only
      gets F2 := F1 plus source. */
  ghost predicate ScalarsDone(s: State, r: State, st: Strength, sf: Strength, sd: Strength) {
    var v := Get(s, V1);
    var at := AddSrc(Get(s, T1), st, SourceDistance);
    var ad := AddSrc(Get(s, D1), sd, SourceDistance);
    && Get(r, T1) == at
    && Get(r, T2) == Advect(v, Diffused(at, at, DiffusionRate))
    && Get(r, T3) == Diffused(at, at, DiffusionRate)
    && Get(r, F2) == AddSrc(Get(s, F1), sf, SourceDistance)
    && Get(r, D0) == Diffused(ad, ad, DiffusionRate)
    && Get(r, D1) == ad
    && Get(r, D2) == Advect(v, Diffused(ad, ad, DiffusionRate))
    && Get(r, D3) == Sweep(ad, ad, DiffusionRate, 2 * Iterations - 1)
  }

  /** UpdateTemp, UpdateFuel and UpdateDensity, in the order of Update
      (Assets/Fluid2.cs:249-253). Velocity, the other fuel slots and the
      colour buffers are untouched, and D_in is left bound to D1's texture. */
  method ScalarPhases(s: State, st: Strength, sf: Strength, sd: Strength) returns (r: State)
    requires Valid(s)
    ensures Steps(s, r, 2 * ScalarLaunches + 1)
    ensures (Diffusion, DIn) in r.bindings && r.bindings[(Diffusion, DIn)] == Tex(s, D1)
    ensures ScalarsDone(s, r, st, sf, sd)
    ensures SameVelocity(s, r) && SameColors(s, r)
    ensures Get(r, F1) == Get(s, F1) && Get(r, F3) == Get(s, F3)
  {
    var s1 := UpdateTemp(s, st);
    var s2 := UpdateFuel(s1, sf);
    r := UpdateDensity(s2, sd);
    StepsTrans(s, s1, s2, ScalarLaunches, 1);
    StepsTrans(s, s2, r, ScalarLaunches + 1, ScalarLaunches);
  }

  /** The contents every slot holds after the four update phases of a frame
      that starts in `s`, with the four source strengths: temperature and
      density are advected along the V1 of the frame start, velocity diffusion
      reads the source-added density as its pre-diffusion field, and fuel
      only gets F2 := F1 plus source. */
  ghost predicate PhasesDone(s: State, r: State, st: Strength, sf: Strength, sd: Strength, sv: Strength) {
    var v := Get(s, V1);
    var at := AddSrc(Get(s, T1), st, SourceDistance);
    var ad := AddSrc(Get(s, D1), sd, SourceDistance);
    var u := Projected(Diffused(ad, AddSrc(v, sv, ForceDistance), VelocityRate), InvHeight, InvHeight);
    var m := Advect(u, u);
    var q := RelaxN(ProjSetup(m, InvHeight), 2 * Iterations);
    && Get(r, T1) == at
    && Get(r, T2) == Advect(v, Diffused(at, at, DiffusionRate))
    && Get(r, T3) == Diffused(at, at, DiffusionRate)
    && Get(r, F1) == Get(s, F1)
    && Get(r, F2) == AddSrc(Get(s, F1), sf, SourceDistance)
    && Get(r, F3) == Get(s, F3)
    && Get(r, D0) == Diffused(ad, ad, DiffusionRate)
    && Get(r, D1) == ad
    && Get(r, D2) == Advect(v, Diffused(ad, ad, DiffusionRate))
    && Get(r, D3) == Sweep(ad, ad, DiffusionRate, 2 * Iterations - 1)
    && Get(r, V0) == u
    && Get(r, V1) == q
    && Get(r, V2) == Projected(m, InvHeight, Height)
    && Get(r, V3) == q
    && Get(r, Color1) == Get(s, Color1)
    && Get(r, Color2) == Get(s, Color2)
  }

  /** UpdateTemp, UpdateFuel, UpdateDensity, UpdateVelocity, in the order of
      Update (Assets/Fluid2.cs:249-255). */
  method Phases(s: State, st: Strength, sf: Strength, sd: Strength, sv: Strength) returns (r: State)
    requires Valid(s)
    ensures Steps(s, r, FrameLaunches)
    ensures PhasesDone(s, r, st, sf, sd, sv)
  {
    var s3 := ScalarPhases(s, st, sf, sd);
    SlotsDistinct(s3, D1, V2);
    SlotsDistinct(s3, D1, V3);
    r := UpdateVelocity(s3, sv);
    StepsTrans(s, s3, r, 2 * ScalarLaunches + 1, VelocityLaunches);
  }

  /** Slot by slot, EndUpdate exchanges the contents seen through D1/D2 and
      through T1/T2. */
  lemma EndUpdateSwaps(s: State)
    requires Valid(s)
    ensures var r := EndUpdate(s);
      && Get(r, D1) == Get(s, D2) && Get(r, D2) == Get(s, D1)
      && Get(r, T1) == Get(s, T2) && Get(r, T2) == Get(s, T1)
  {
    SlotsDistinct(s, D1, V1);
    SlotsDistinct(s, D2, V1);
    SlotsDistinct(s, T1, V1);
    SlotsDistinct(s, T2, V1);
  }

  /** Slot by slot, EndUpdate makes V1 show V2's contents and leaves the
      contents of every slot other than D1, D2, T1 and T2 alone. */
  lemma EndUpdateCopies(s: State)
    requires Valid(s)
    ensures var r := EndUpdate(s);
      && Get(r, V1) == Get(s, V2) && Get(r, V2) == Get(s, V2)
      && Get(r, D0) == Get(s, D0) && Get(r, D3) == Get(s, D3)
      && Get(r, V0) == Get(s, V0) && Get(r, V3) == Get(s, V3)
      && Get(r, T3) == Get(s, T3) && SameFuel(s, r) && SameColors(s, r)
  {
    SlotsDistinct(s, V2, V1);
    SlotsDistinct(s, D0, V1);
    SlotsDistinct(s, D3, V1);
    SlotsDistinct(s, V0, V1);
    SlotsDistinct(s, V3, V1);
    SlotsDistinct(s, T3, V1);
    SlotsDistinct(s, F1, V1);
    SlotsDistinct(s, F2, V1);
    SlotsDistinct(s, F3, V1);
    SlotsDistinct(s, Color1, V1);
    SlotsDistinct(s, Color2, V1);
  }

  /** The contents every slot holds at the end of a frame that starts in `s`
      with the four source strengths, after EndUpdate's rotation: D1 and T1
      hold the advected fields the next frame starts from, D2 and T2 the
      source-added fields of this frame, V1 and V2 the twice-projected
      velocity, and F1 is never written. */
  ghost predicate TickDone(s: State, r: State, st: Strength, sf: Strength, sd: Strength, sv: Strength) {
    var v := Get(s, V1);
    var at := AddSrc(Get(s, T1), st, SourceDistance);
    var ad := AddSrc(Get(s, D1), sd, SourceDistance);
    var u := Projected(Diffused(ad, AddSrc(v, sv, ForceDistance), VelocityRate), InvHeight, InvHeight);
    var m := Advect(u, u);
    var q := RelaxN(ProjSetup(m, InvHeight), 2 * Iterations);
    && Get(r, T1) == Advect(v, Diffused(at, at, DiffusionRate))
    && Get(r, T2) == at
    && Get(r, T3) == Diffused(at, at, DiffusionRate)
    && Get(r, F1) == Get(s, F1)
    && Get(r, F2) == AddSrc(Get(s, F1), sf, SourceDistance)
    && Get(r, F3) == Get(s, F3)
    && Get(r, D0) == Diffused(ad, ad, DiffusionRate)
    && Get(r, D1) == Advect(v, Diffused(ad, ad, DiffusionRate))
    && Get(r, D2) == ad
    && Get(r, D3) == Sweep(ad, ad, DiffusionRate, 2 * Iterations - 1)
    && Get(r, V0) == u
    && Get(r, V1) == Projected(m, InvHeight, Height)
    && Get(r, V2) == Projected(m, InvHeight, Height)
    && Get(r, V3) == q
    && Get(r, Color1) == Get(s, Color1)
    && Get(r, Color2) == Get(s, Color2)
  }

  /** One frame of the GPU program: the four phases, then EndUpdate
      (Assets/Fluid2.cs:249-257). */
  method Tick(s: State, st: Strength, sf: Strength, sd: Strength, sv: Strength) returns (r: State)
    requires Valid(s)
    ensures Valid(r) && |r.log| == |s.log| + FrameLaunches && r.log[..|s.log|] == s.log
    ensures r.slots == Rotate(s.slots)
    ensures TickDone(s, r, st, sf, sd, sv)
  {
    var p := Phases(s, st, sf, sd, sv);
    r := EndUpdate(p);
    EndUpdateKeepsValid(p);
    EndUpdateSwaps(p);
    EndUpdateCopies(p);
  }
}

=== FILE: geometry.dfy ===
/** Tile-aligned grid geometry of Fluid2 (Assets/Fluid2.cs:77-81) and the
    resolution clamp applied by OnValidate (Assets/Fluid2.cs:128-131).
    Kernels run on 8x8 thread groups, so both grid dimensions are rounded up
    to a multiple of the tile size. All arithmetic is C#'s 32-bit `int`. */
module Geometry {
  import opened Numeric

  const Tile: int := 8

  /** A texture size in pixels. */
  datatype Size = Size(width: Int32, height: Int32)

  /** OnValidate: `_resolution = Mathf.Max(_resolution, 8)`. */
  function ClampResolution(r: Int32): (c: Int32)
    ensures c >= Tile && c >= r
    ensures r >= Tile ==> c == r
    ensures r < Tile ==> c == Tile
  {
    if r > Tile then r else Tile
  }

  /** Thread groups needed to cover `x` cells: `(x + 7) / 8` in 32 bits. */
  function ThreadCount(x: Int32): (n: Int32)
    ensures 0 <= x <= MaxInt32 - 7 ==> 0 <= n && n * Tile <= x + 7 < n * Tile + Tile
  {
    var n := CsDiv(Wrap32(x + 7), Tile);
    assert 0 <= x <= MaxInt32 - 7 ==> n * Tile <= x + 7 < n * Tile + Tile;
    n
  }

  /** Cells covered by the thread groups: `ThreadCount * 8` in 32 bits. */
  function Tiled(x: Int32): (t: Int32)
    ensures 0 <= x <= MaxInt32 - 7 ==> t % Tile == 0 && x <= t < x + Tile
  {
    var n := ThreadCount(x);
    if 0 <= x <= MaxInt32 - 7 then
      TileMultiple(n);
      Wrap32(n * Tile)
    else
      Wrap32(n * Tile)
  }

  lemma TileMultiple(n: nat)
    ensures (n * Tile) % Tile == 0
  {
  }

  /** `ThreadCountX`: `(_resolution + 7) / 8`. */
  function ThreadCountX(res: Int32): (n: Int32)
    ensures 0 <= res <= MaxInt32 - 7 ==> n * Tile <= res + 7 < n * Tile + Tile
  {
    ThreadCount(res)
  }

  /** `ResolutionX`: `ThreadCountX * 8`. */
  function ResolutionX(res: Int32): (rx: Int32)
    ensures 0 <= res <= MaxInt32 - 7 ==> rx % Tile == 0 && res <= rx < res + Tile
  {
    Tiled(res)
  }

  /** The resolution scaled by the screen's aspect ratio before tiling:
      `_resolution * Screen.height / Screen.width`, each step in 32 bits. */
  function ScaledHeight(res: Int32, screenWidth: Int32, screenHeight: Int32): (q: Int32)
    requires screenWidth > 0
    ensures 0 <= res * screenHeight <= MaxInt32 ==>
              0 <= res * screenHeight - q * screenWidth < screenWidth
  {
    CsDiv(Wrap32(res * screenHeight), screenWidth)
  }

  /** `ThreadCountY`: `(_resolution * Screen.height / Screen.width + 7) / 8`. */
  function ThreadCountY(res: Int32, screenWidth: Int32, screenHeight: Int32): (n: Int32)
    requires screenWidth > 0
    ensures var q := ScaledHeight(res, screenWidth, screenHeight);
            0 <= q <= MaxInt32 - 7 ==> n * Tile <= q + 7 < n * Tile + Tile
  {
    ThreadCount(ScaledHeight(res, screenWidth, screenHeight))
  }

  /** `ResolutionY`: `ThreadCountY * 8`. */
  function ResolutionY(res: Int32, screenWidth: Int32, screenHeight: Int32): (ry: Int32)
    requires screenWidth > 0
    ensures var q := ScaledHeight(res, screenWidth, screenHeight);
            0 <= q <= MaxInt32 - 7 ==> ry % Tile == 0 && q <= ry < q + Tile
  {
    Tiled(ScaledHeight(res, screenWidth, screenHeight))
  }

  /** OnValidate is idempotent: a second validation changes nothing. */
  lemma ClampIdempotent(r: Int32)
    ensures ClampResolution(ClampResolution(r)) == ClampResolution(r)
  {
  }

  /** Whatever resolution is configured (short of 32-bit overflow), the
      validated grid width is a positive multiple of the tile size that
      covers the resolution with less than one tile of padding. */
  lemma ValidatedWidth(r: Int32)
    requires r <= MaxInt32 - 7
    ensures var c := ClampResolution(r);
            var rx := ResolutionX(c);
            rx % Tile == 0 && Tile <= c <= rx < c + Tile
  {
  }

  /** The same bound for the grid height, stated against the aspect-scaled
      resolution `R * H / W` when the product `R * H` fits in 32 bits. */
  lemma ValidatedHeight(r: Int32, screenWidth: Int32, screenHeight: Int32)
    requires screenWidth > 0 && screenHeight >= 0
    requires var c := ClampResolution(r); c * screenHeight <= MaxInt32 - 7
    ensures var c := ClampResolution(r);
            var q := ScaledHeight(c, screenWidth, screenHeight);
            var ry := ResolutionY(c, screenWidth, screenHeight);
            0 <= q && q * screenWidth <= c * screenHeight &&
            ry % Tile == 0 && q <= ry < q + Tile
  {
    var c := ClampResolution(r);
    var q := ScaledHeight(c, screenWidth, screenHeight);
    assert 0 <= c * screenHeight by { NonNegProduct(c, screenHeight); }
    DivideNat(c * screenHeight, screenWidth);
    assert q == (c * screenHeight) / screenWidth;
    assert q <= c * screenHeight;
  }
}

=== FILE: gpu.dfy ===
/** The GPU-side state that Fluid2's frame program manipulates: named buffer
    slots (the static fields of VFB, Assets/Fluid2.cs:84-103) holding
    references to render textures, the contents of each texture, and the
    per-kernel texture bindings of the compute shader. Kernel bodies are not
    part of this model: their outputs are symbolic terms over their inputs. */
module Gpu {
  import opened Wrappers
  import opened Modes

  /** AllocateTextureBuffers creates exactly one texture per slot, so texture
      objects are numbered 0..15 in allocation order. */
  const TextureCount: nat := 16
  type TexId = t: nat | t < TextureCount

  /** The distance uniform `SourceDistance`: unset, `_sourceDistance` or `_forceDistance`. */
  datatype Radius = RadiusUnset | SourceDistance | ForceDistance

  /** The `Alpha`/`Beta` pair of the diffusion kernel: derived from
      `_diffusion` for temperature and density, or from `_velocityDiffusion`
      for velocity. */
  datatype Rate = RateUnset | DiffusionRate | VelocityRate

  /** The projection scale `h`: unset, `1 / height` or `height`. */
  datatype HCoef = HUnset | InvHeight | Height

  /** Float uniforms of the compute shader that the frame program sets. */
  datatype Uniforms = Uniforms(strength: Strength, radius: Radius, rate: Rate, h: HCoef)

  const NoUniforms := Uniforms(Off, RadiusUnset, RateUnset, HUnset)

  /** Symbolic texture contents: each kernel is an uninterpreted constructor
      over the contents it reads and the uniforms it uses. */
  datatype Content =
    | Zero
    | Seeded
    | AddSrc(base: Content, strength: Strength, radius: Radius)
    | Diffuse(x0: Content, prev: Content, rate: Rate)
    | Advect(vel: Content, field: Content)
    | ProjSetup(vel: Content, h: HCoef)
    | Relax(potential: Content)
    | ProjFinish(potential: Content, vel: Content, h: HCoef)

  /** The compute kernels of the fluid shader (Assets/Fluid2.cs:62-72). */
  datatype Kernel =
    | AddSource | Diffusion | Advection | CreateVelocityField
    | ProjectionSetup | Projection | ProjectionFinish

  /** Texture parameter names used with SetTexture. */
  datatype Param = DIn | DOut | DGsbuff | VIn | HIn | HOut | VOut

  /** The parameters a kernel samples from. */
  function ReadParams(k: Kernel): seq<Param> {
    match k
    case AddSource => [DIn]
    case Diffusion => [DIn, DGsbuff]
    case Advection => [VIn, DIn]
    case CreateVelocityField => []
    case ProjectionSetup => [VIn]
    case Projection => [HIn]
    case ProjectionFinish => [HIn]
  }

  /** The parameter a kernel writes to. CreateVelocityField seeds its V_in and
      ProjectionFinish updates its V_out in place. */
  function WriteParam(k: Kernel): Param {
    match k
    case AddSource => DOut
    case Diffusion => DOut
    case Advection => DOut
    case CreateVelocityField => VIn
    case ProjectionSetup => HOut
    case Projection => HOut
    case ProjectionFinish => VOut
  }

  /** One kernel dispatch as it happened: the textures bound to its input
      parameters, in ReadParams order, and the texture it wrote. */
  datatype Launch = Launch(kernel: Kernel, inputs: seq<TexId>, output: TexId) {
    /** The output is not bound to any input parameter. ProjectionFinish
        still reads its own output, V_out, which it updates in place; that is
        not an input parameter, so this does not exclude it. */
    predicate WritesNoInput() {
      output !in inputs
    }
  }

  /** The buffer slots (the static fields of VFB and the two colour buffers),
      numbered in the order AllocateTextureBuffers fills them: density D0..D3,
      velocity V0..V3, temperature T1..T3, fuel F1..F3, colour 1 and 2. */
  type Slot = i: nat | i < TextureCount

  const D0: Slot := 0
  const D1: Slot := 1
  const D2: Slot := 2
  const D3: Slot := 3
  const V0: Slot := 4
  const V1: Slot := 5
  const V2: Slot := 6
  const V3: Slot := 7
  const T1: Slot := 8
  const T2: Slot := 9
  const T3: Slot := 10
  const F1: Slot := 11
  const F2: Slot := 12
  const F3: Slot := 13
  const Color1: Slot := 14
  const Color2: Slot := 15

  /** The texture each slot references, indexed by slot. */
  type SlotTable = t: seq<TexId> | |t| == TextureCount
    witness seq(TextureCount, i => 0)

  type Contents = c: seq<Content> | |c| == TextureCount
    witness seq(TextureCount, _ => Zero)

  datatype State = State(
    slots: SlotTable,
    contents: Contents,
    bindings: map<(Kernel, Param), TexId>,
    uniforms: Uniforms,
    log: seq<Launch>)

  function Tex(s: State, sl: Slot): TexId {
    s.slots[sl]
  }

  /** The contents of the texture currently referenced by a slot. */
  function Get(s: State, sl: Slot): Content {
    s.contents[Tex(s, sl)]
  }

  /** The invariant of the buffer discipline: slots reference distinct
      textures, and no dispatch so far wrote a texture bound to one of its
      input parameters. */
  ghost predicate Valid(s: State) {
    Distinct(s.slots) && Clean(s.log)
  }

  /** No two slots reference the same texture. */
  ghost predicate Distinct(t: SlotTable) {
    forall i, j :: 0 <= i < j < TextureCount ==> t[i] != t[j]
  }

  /** No recorded dispatch wrote a texture bound to one of its input
      parameters (ProjectionFinish's in-place V_out is not one). */
  ghost predicate Clean(log: seq<Launch>) {
    forall i :: 0 <= i < |log| ==> log[i].WritesNoInput()
  }

  /** `_compute.SetTexture(k, p, VFB.sl)`: the binding captures the texture
      object the slot references now, not the slot. Every other binding, the
      slot table, the contents, the uniforms and the log stay as they were. */
  function SetTexture(s: State, k: Kernel, p: Param, sl: Slot): (r: State)
    ensures (k, p) in r.bindings && r.bindings[(k, p)] == Tex(s, sl)
    ensures forall key :: key != (k, p) ==>
              (key in r.bindings <==> key in s.bindings) &&
              (key in s.bindings ==> r.bindings[key] == s.bindings[key])
    ensures r.slots == s.slots && r.contents == s.contents
    ensures r.uniforms == s.uniforms && r.log == s.log
  {
    s.(bindings := s.bindings[(k, p) := Tex(s, sl)])
  }

  /** `Graphics.CopyTexture(VFB.src, VFB.dst)`: copies contents, not references. */
  function CopyTexture(s: State, src: Slot, dst: Slot): (r: State)
    ensures Get(r, dst) == Get(s, src)
    ensures forall t: TexId :: t != Tex(s, dst) ==> r.contents[t] == s.contents[t]
    ensures r.slots == s.slots && r.bindings == s.bindings && r.log == s.log
    ensures r.uniforms == s.uniforms
  {
    s.(contents := s.contents[Tex(s, dst) := Get(s, src)])
  }

  /** Dispatching a kernel with a parameter that has no texture bound fails
      (Unity reports the property as not set). */
  datatype Error = Unbound(kernel: Kernel, param: Param)

  /** Every parameter kernel `k` reads or writes has a texture bound to it. */
  predicate AllBound(s: State, k: Kernel) {
    forall p :: p in Params(k) ==> (k, p) in s.bindings
  }

  /** The parameters of `k`, inputs first. */
  function Params(k: Kernel): seq<Param> {
    ReadParams(k) + [WriteParam(k)]
  }

  /** A parameter among `ps` that kernel `k` has no texture bound to: the
      first one, scanning `ps` in order. */
  function FirstUnbound(s: State, k: Kernel, ps: seq<Param>): (p: Param)
    requires exists q :: q in ps && (k, q) !in s.bindings
    ensures p in ps && (k, p) !in s.bindings
  {
    if (k, ps[0]) !in s.bindings then ps[0] else FirstUnbound(s, k, ps[1..])
  }

  /** The textures bound to the inputs of `k`, in ReadParams order. */
  function Inputs(s: State, k: Kernel): (ins: seq<TexId>)
    requires AllBound(s, k)
    ensures |ins| == |ReadParams(k)|
    ensures forall i :: 0 <= i < |ins| ==> ins[i] == s.bindings[(k, ReadParams(k)[i])]
  {
    seq(|ReadParams(k)|, i requires 0 <= i < |ReadParams(k)| => s.bindings[(k, ReadParams(k)[i])])
  }

  /** The symbolic result of kernel `k` over the contents of its inputs `ins`
      and, for the in-place ProjectionFinish, of its output texture `out`. */
  function Output(k: Kernel, u: Uniforms, c: Contents, ins: seq<TexId>, out: TexId): Content
    requires |ins| == |ReadParams(k)|
  {
    match k
    case AddSource => AddSrc(c[ins[0]], u.strength, u.radius)
    case Diffusion => Diffuse(c[ins[0]], c[ins[1]], u.rate)
    case Advection => Advect(c[ins[0]], c[ins[1]])
    case CreateVelocityField => Seeded
    case ProjectionSetup => ProjSetup(c[ins[0]], u.h)
    case Projection => Relax(c[ins[0]])
    case ProjectionFinish => ProjFinish(c[ins[0]], c[out], u.h)
  }

  /** Writes the kernel output and records the launch. */
  function Perform(s: State, launch: Launch, out: Content): State {
    s.(contents := s.contents[launch.output := out], log := s.log + [launch])
  }

  /** `_compute.Dispatch(k, ...)`: runs kernel `k` on whatever is bound now.
      It fails exactly when one of the kernel's parameters was never bound;
      otherwise it overwrites the bound output texture and nothing else, and
      the log records the textures it read and the one it wrote. */
  function Dispatch(s: State, k: Kernel): (r: Result<State, Error>)
    ensures r.Success? <==> AllBound(s, k)
    ensures r.Failure? ==> r.error.kernel == k && (k, r.error.param) !in s.bindings
    ensures r.Success? ==>
      && |r.value.log| == |s.log| + 1 && r.value.log[..|s.log|] == s.log
      && var l := r.value.log[|s.log|];
      && l.kernel == k && l.output == s.bindings[(k, WriteParam(k))]
      && |l.inputs| == |ReadParams(k)|
      && (forall i :: 0 <= i < |l.inputs| ==> l.inputs[i] == s.bindings[(k, ReadParams(k)[i])])
      && r.value.slots == s.slots && r.value.bindings == s.bindings
      && r.value.uniforms == s.uniforms
      && r.value.contents[l.output] == Output(k, s.uniforms, s.contents, l.inputs, l.output)
      && forall t: TexId :: t != l.output ==> r.value.contents[t] == s.contents[t]
  {
    if !AllBound(s, k) then
      Failure(Unbound(k, FirstUnbound(s, k, Params(k))))
    else
      var ins, out := Inputs(s, k), s.bindings[(k, WriteParam(k))];
      Success(Perform(s, Launch(k, ins, out), Output(k, s.uniforms, s.contents, ins, out)))
  }

  /** Distinct slots reference distinct textures in a valid state. */
  lemma SlotsDistinct(s: State, a: Slot, b: Slot)
    requires Valid(s) && a != b
    ensures Tex(s, a) != Tex(s, b)
  {
    if a < b {
      assert s.slots[a] != s.slots[b];
    } else {
      assert s.slots[b] != s.slots[a];
    }
  }

  /** A dispatch whose output binding differs from all its input bindings keeps
      the state valid. */
  lemma DispatchKeepsValid(s: State, k: Kernel)
    requires Valid(s) && AllBound(s, k)
    requires forall i :: 0 <= i < |ReadParams(k)| ==>
               s.bindings[(k, ReadParams(k)[i])] != s.bindings[(k, WriteParam(k))]
    ensures Dispatch(s, k).Success? && Valid(Dispatch(s, k).value)
  {
    var r := Dispatch(s, k).value;
    var l := r.log[|s.log|];
    assert l.WritesNoInput();
    forall i | 0 <= i < |r.log|
      ensures r.log[i].WritesNoInput()
    {
      if i < |s.log| {
        assert r.log[i] == r.log[..|s.log|][i];
      }
    }
  }
}

=== FILE: modes.dfy ===
/** The edit mode of Fluid2 and how it gates the source strengths of each
    field (Assets/Fluid2.cs:31-37, 229-243, 284-288, 305-309, 357-361, 461-465). */
module Modes {

  /** Which field a left click edits. */
  datatype Mode = Density | Temp | Fuel | Velocity

  /** The keys whose `Input.GetKeyDown` is true in this frame. */
  datatype Keys = Keys(f: bool, t: bool, d: bool, v: bool)

  /** The mode a key selects, when that key is pressed. */
  predicate Selects(k: Keys, m: Mode) {
    match m
    case Fuel => k.f
    case Temp => k.t
    case Density => k.d
    case Velocity => k.v
  }

  /** Priority of the key tests in Update: F is tested first, then T, D, V. */
  function Priority(m: Mode): nat {
    match m
    case Fuel => 3
    case Temp => 2
    case Density => 1
    case Velocity => 0
  }

  /** The if/else-if chain of Update: the selected mode of highest priority
      wins; when no mode key is down the mode is kept. */
  function NextMode(current: Mode, k: Keys): (r: Mode)
    ensures (exists m :: Selects(k, m)) ==>
              Selects(k, r) && forall m :: Selects(k, m) ==> Priority(m) <= Priority(r)
    ensures (forall m :: !Selects(k, m)) ==> r == current
  {
    if k.f then assert Selects(k, Fuel); Fuel
    else if k.t then assert Selects(k, Temp); Temp
    else if k.d then assert Selects(k, Density); Density
    else if k.v then assert Selects(k, Velocity); Velocity
    else current
  }

  /** Pressing the same keys again in the next frame selects the same mode. */
  lemma NextModeIdempotent(current: Mode, k: Keys)
    ensures NextMode(NextMode(current, k), k) == NextMode(current, k)
  {
  }

  /** The four fields that receive a source (or force) every frame. */
  datatype Field = TempField | FuelField | DensityField | VelocityField

  /** The serialized float each field's source strength comes from:
      `_source` (fuel and density), `_tempAdd` (temperature), `_force` (velocity). */
  datatype Knob = SourceKnob | TempAddKnob | ForceKnob

  /** The value written to the `SourceStrength` uniform: either 0 or a knob. */
  datatype Strength = Off | On(knob: Knob)

  function KnobOf(field: Field): Knob {
    match field
    case TempField => TempAddKnob
    case FuelField => SourceKnob
    case DensityField => SourceKnob
    case VelocityField => ForceKnob
  }

  /** The mode under which a scalar field can be painted. */
  predicate Edits(mode: Mode, field: Field) {
    match field
    case TempField => mode == Temp
    case FuelField => mode == Fuel
    case DensityField => mode == Density
    case VelocityField => mode == Velocity
  }

  /** SourceStrength as set before each AddSource dispatch: a scalar field gets
      its knob only in its own mode with mouse button 0 held; velocity gets
      `_force` whenever mouse button 1 is held, whatever the mode. */
  function SourceStrength(field: Field, mode: Mode, button0: bool, button1: bool): (r: Strength)
    ensures r.On? ==> r.knob == KnobOf(field)
    ensures field != VelocityField ==> (r.On? <==> Edits(mode, field) && button0)
    ensures field == VelocityField ==> (r.On? <==> button1)
  {
    match field
    case TempField => if mode == Temp && button0 then On(TempAddKnob) else Off
    case FuelField => if mode == Fuel && button0 then On(SourceKnob) else Off
    case DensityField => if mode == Density && button0 then On(SourceKnob) else Off
    case VelocityField => if button1 then On(ForceKnob) else Off
  }

  /** At most one of temperature, fuel and density receives a source per frame. */
  lemma AtMostOneScalarSource(mode: Mode, button0: bool, button1: bool, a: Field, b: Field)
    requires a != VelocityField && b != VelocityField
    requires SourceStrength(a, mode, button0, button1).On?
    requires SourceStrength(b, mode, button0, button1).On?
    ensures a == b
  {
  }

  /** The velocity force depends on mouse button 1 only: neither the mode nor
      button 0 changes it. */
  lemma VelocityForceIgnoresMode(m1: Mode, m2: Mode, b0: bool, b0': bool, button1: bool)
    ensures SourceStrength(VelocityField, m1, b0, button1)
         == SourceStrength(VelocityField, m2, b0', button1)
  {
  }
}

=== FILE: numeric.dfy ===
/** C#'s 32-bit signed integers: the `int` of Fluid2 and TextureComparer.
    Arithmetic in C# is unchecked by default, so a product or sum that leaves
    the range wraps around modulo 2^32; integer division truncates toward zero. */
module Numeric {

  const MinInt32: int := -0x8000_0000
  const MaxInt32: int := 0x7fff_ffff

  type Int32 = x: int | MinInt32 <= x <= MaxInt32

  function Abs(x: int): nat {
    if x < 0 then -x else x
  }

  /** Unchecked narrowing of an exact result to 32 bits. */
  function Wrap32(x: int): (r: Int32)
    ensures (r - x) % 0x1_0000_0000 == 0
    ensures MinInt32 <= x <= MaxInt32 ==> r == x
  {
    (x - MinInt32) % 0x1_0000_0000 + MinInt32
  }

  /** C# integer division by a positive divisor: the quotient is truncated
      toward zero, so the remainder takes the sign of the dividend (Dafny's own
      `/` is Euclidean and differs for a negative dividend). */
  function CsDiv(a: int, b: int): (q: int)
    requires b > 0
    ensures a >= 0 ==> 0 <= a - q * b < b
    ensures a < 0 ==> -b < a - q * b <= 0
    ensures Abs(q) <= Abs(a)
  {
    if a >= 0 then
      DivideNat(a, b);
      a / b
    else
      DivideNat(-a, b);
      -((-a) / b)
  }

  lemma DivideNat(n: nat, b: int)
    requires b > 0
    ensures 0 <= n - (n / b) * b < b
    ensures 0 <= n / b <= n
  {
    var q, r := n / b, n % b;
    assert n == q * b + r;
    assert 0 <= r < b;
    MulMonotone(q, b);
  }

  lemma MulMonotone(q: nat, b: int)
    requires b >= 1
    ensures q <= q * b
  {
    var c: nat := b - 1;
    assert q * b == q + q * c;
    assert q * c >= 0;
  }

  /** The product of two naturals is a natural; stated once so that
      nonlinear goals can call it instead of searching for it. */
  lemma NonNegProduct(a: nat, b: nat)
    ensures a * b >= 0
  {
  }
}

=== FILE: passes.dfy ===
/** The recurring step sequences of Fluid2's update functions: a source pass,
    the two ping-pong loops (diffusion and projection relaxation), an advection
    pass, and the projection setup and finish passes. Each pass is a method, so
    callers reason from its contract, as the frame program reads. */
module Passes {
  import opened Wrappers
  import opened Modes
  import opened Gpu

  /** Both relaxation loops run this many iterations (Assets/Fluid2.cs:320,
      373, 394, 431, 478). */
  const Iterations: nat := 10

  /** Contents of the second ping-pong buffer after `k` half-steps of the
      diffusion relaxation, each reading `x0` and the previous half-step's
      output. */
  function Sweep(x0: Content, g: Content, rate: Rate, k: nat): Content
    decreases k
  {
    if k == 0 then g else Sweep(x0, Diffuse(x0, g, rate), rate, k - 1)
  }

  /** `k` successive relaxations of a pressure potential. */
  function RelaxN(c: Content, k: nat): Content
    decreases k
  {
    if k == 0 then c else RelaxN(Relax(c), k - 1)
  }

  /** One more half-step diffuses the previous one. */
  lemma {:induction false} SweepLast(x0: Content, g: Content, rate: Rate, k: nat)
    ensures Sweep(x0, g, rate, k + 1) == Diffuse(x0, Sweep(x0, g, rate, k), rate)
    decreases k
  {
    if k > 0 {
      SweepLast(x0, Diffuse(x0, g, rate), rate, k - 1);
    }
  }

  /** One more relaxation relaxes the previous result. */
  lemma {:induction false} RelaxLast(c: Content, k: nat)
    ensures RelaxN(c, k + 1) == Relax(RelaxN(c, k))
    decreases k
  {
    if k > 0 {
      RelaxLast(Relax(c), k - 1);
    }
  }

  /** The bindings of every kernel other than `k` are as they were. */
  ghost predicate KeepsBindings(s: State, r: State, k: Kernel) {
    forall key | key in s.bindings && key.0 != k ::
      key in r.bindings && r.bindings[key] == s.bindings[key]
  }

  /** What every step sequence of the frame program keeps: validity and the
      slot table; it appends `launches` dispatches to the log, keeping the
      log before them. */
  ghost predicate Steps(s: State, r: State, launches: nat) {
    && Valid(r)
    && r.slots == s.slots
    && |r.log| == |s.log| + launches
    && r.log[..|s.log|] == s.log
  }

  /** Two step sequences in a row are one: the launch counts add up and the
      log before the first is kept. */
  lemma StepsTrans(s: State, m: State, r: State, a: nat, b: nat)
    requires Steps(s, m, a) && Steps(m, r, b)
    ensures Steps(s, r, a + b)
  {
    PrefixTrans(s.log, m.log, r.log);
  }

  /** A prefix of a prefix of a log is a prefix of it. */
  lemma PrefixTrans(a: seq<Launch>, b: seq<Launch>, c: seq<Launch>)
    requires |a| <= |b| <= |c| && b[..|a|] == a && c[..|b|] == b
    ensures c[..|a|] == a
  {
    assert c[..|a|] == c[..|b|][..|a|];
  }

  /** A pass that binds only kernel `k` also keeps every other binding. */
  ghost predicate Framed(s: State, r: State, k: Kernel, launches: nat) {
    Steps(s, r, launches) && KeepsBindings(s, r, k)
  }

  lemma FramedTrans(s: State, m: State, r: State, k: Kernel, a: nat, b: nat)
    requires Framed(s, m, k, a) && Framed(m, r, k, b)
    ensures Framed(s, r, k, a + b)
  {
  }

  /** SetFloat("SourceDistance"), SetTexture D_out and D_in, SetFloat
      ("SourceStrength"), Dispatch(AddSource): the head of every update. The
      pass writes the source-added input into `out`, and only there; it reads
      `src` and writes `out`, two different textures. */
  method SourcePass(s: State, out: Slot, src: Slot, radius: Radius, strength: Strength)
    returns (r: State)
    requires Valid(s) && out != src
    ensures Framed(s, r, AddSource, 1)
    ensures r.log[|s.log|] == Launch(AddSource, [Tex(s, src)], Tex(s, out))
    ensures r.uniforms == s.uniforms.(radius := radius, strength := strength)
    ensures r.contents == s.contents[Tex(s, out) := AddSrc(Get(s, src), strength, radius)]
  {
    var s1 := s.(uniforms := s.uniforms.(radius := radius));
    var s2 := SetTexture(s1, AddSource, DOut, out);
    var s3 := SetTexture(s2, AddSource, DIn, src);
    var s4 := s3.(uniforms := s3.uniforms.(strength := strength));
    SlotsDistinct(s, out, src);
    DispatchKeepsValid(s4, AddSource);
    r := Dispatch(s4, AddSource).value;
  }

  /** The requirements of a diffusion pass over `first` and `second`: D_in is
      bound, and to a texture other than the two ping-pong buffers. */
  ghost predicate DiffusionReady(s: State, first: Slot, second: Slot) {
    && Valid(s) && first != second
    && (Diffusion, DIn) in s.bindings
    && s.bindings[(Diffusion, DIn)] != Tex(s, first)
    && s.bindings[(Diffusion, DIn)] != Tex(s, second)
  }

  /** The D_in contents a diffusion dispatch reads. */
  ghost function DiffusionSource(s: State): Content
    requires (Diffusion, DIn) in s.bindings
  {
    s.contents[s.bindings[(Diffusion, DIn)]]
  }

  /** A launch of a diffusion loop over the textures `a` and `b` with D_in
      bound to `din`: a Diffusion dispatch that reads D_in and one of the two
      buffers as D_gsbuff and writes the other as D_out. */
  ghost predicate DiffusionLaunch(l: Launch, din: TexId, a: TexId, b: TexId) {
    l == Launch(Diffusion, [din, a], b) || l == Launch(Diffusion, [din, b], a)
  }

  /** Half an iteration of the diffusion loop: SetTexture D_out and D_gsbuff,
      Dispatch(Diffusion). `out` receives a relaxation step from `prev`,
      reading D_in as the pre-diffusion field. */
  method DiffusionHalfStep(s: State, out: Slot, prev: Slot) returns (r: State)
    requires DiffusionReady(s, out, prev)
    ensures DiffusionReady(r, out, prev)
    ensures Framed(s, r, Diffusion, 1) && r.uniforms == s.uniforms
    ensures r.bindings[(Diffusion, DIn)] == s.bindings[(Diffusion, DIn)]
    ensures r.log == s.log + [Launch(Diffusion, [s.bindings[(Diffusion, DIn)], Tex(s, prev)], Tex(s, out))]
    ensures r.contents ==
      s.contents[Tex(s, out) := Diffuse(DiffusionSource(s), Get(s, prev), s.uniforms.rate)]
  {
    SlotsDistinct(s, out, prev);
    var s1 := SetTexture(s, Diffusion, DOut, out);
    var s2 := SetTexture(s1, Diffusion, DGsbuff, prev);
    DispatchKeepsValid(s2, Diffusion);
    r := Dispatch(s2, Diffusion).value;
    var l := r.log[|s.log|];
    assert l.inputs[0] == s.bindings[(Diffusion, DIn)] && l.inputs[1] == Tex(s, prev);
    assert l == Launch(Diffusion, [s.bindings[(Diffusion, DIn)], Tex(s, prev)], Tex(s, out));
    assert r.log == s.log + [l];
  }

  /** One iteration of the diffusion loop (Assets/Fluid2.cs:480-486): write
      `first` from `second`, then `second` from `first`, both reading D_in. */
  method DiffusionIteration(s: State, first: Slot, second: Slot) returns (r: State)
    requires DiffusionReady(s, first, second)
    ensures DiffusionReady(r, first, second)
    ensures Framed(s, r, Diffusion, 2) && r.uniforms == s.uniforms
    ensures r.bindings[(Diffusion, DIn)] == s.bindings[(Diffusion, DIn)]
    ensures var din := s.bindings[(Diffusion, DIn)];
      r.log == s.log + [Launch(Diffusion, [din, Tex(s, second)], Tex(s, first)),
                        Launch(Diffusion, [din, Tex(s, first)], Tex(s, second))]
    ensures var x0, rate := DiffusionSource(s), s.uniforms.rate;
      var h := Diffuse(x0, Get(s, second), rate);
      r.contents == s.contents[Tex(s, first) := h][Tex(s, second) := Diffuse(x0, h, rate)]
  {
    var s1 := DiffusionHalfStep(s, first, second);
    r := DiffusionHalfStep(s1, second, first);
    FramedTrans(s, s1, r, Diffusion, 1, 1);
  }

  /** The diffusion loop of `n` iterations. It ends with the last half-step in
      `second` (D2, T2 or V2, the buffer named post-diffusion in the comment
      at Assets/Fluid2.cs:326) and the one before it in `first`; D_in and
      every other texture are untouched. Every launch it appends is a
      Diffusion dispatch whose D_in, D_gsbuff and D_out are three different
      textures: the bound D_in and the two buffers. */
  method DiffusionLoop(s: State, first: Slot, second: Slot, n: nat) returns (r: State)
    requires DiffusionReady(s, first, second)
    ensures DiffusionReady(r, first, second)
    ensures Framed(s, r, Diffusion, 2 * n) && r.uniforms == s.uniforms
    ensures r.bindings[(Diffusion, DIn)] == s.bindings[(Diffusion, DIn)]
    ensures Tex(s, first) != Tex(s, second)
    ensures forall j | |s.log| <= j < |r.log| ::
              DiffusionLaunch(r.log[j], s.bindings[(Diffusion, DIn)], Tex(s, first), Tex(s, second))
    ensures n == 0 ==> r.contents == s.contents
    ensures var x0, g, rate := DiffusionSource(s), Get(s, second), s.uniforms.rate;
      n > 0 ==>
        r.contents == s.contents[Tex(s, first) := Sweep(x0, g, rate, 2 * n - 1)]
                                [Tex(s, second) := Sweep(x0, g, rate, 2 * n)]
  {
    ghost var x0, g, rate := DiffusionSource(s), Get(s, second), s.uniforms.rate;
    ghost var a, b := Tex(s, first), Tex(s, second);
    ghost var din := s.bindings[(Diffusion, DIn)];
    SlotsDistinct(s, first, second);
    r := s;
    var i := 0;
    while i < n
      invariant 0 <= i <= n
      invariant (Diffusion, DIn) in r.bindings && DiffusionReady(r, first, second)
      invariant Framed(s, r, Diffusion, 2 * i) && r.uniforms == s.uniforms
      invariant r.bindings[(Diffusion, DIn)] == s.bindings[(Diffusion, DIn)]
      invariant r.log[..|s.log|] == s.log
      invariant forall j | |s.log| <= j < |r.log| :: DiffusionLaunch(r.log[j], din, a, b)
      invariant i == 0 ==> r.contents == s.contents
      invariant i > 0 ==>
        r.contents == s.contents[a := Sweep(x0, g, rate, 2 * i - 1)][b := Sweep(x0, g, rate, 2 * i)]
    {
      ghost var prev := r;
      r := DiffusionIteration(r, first, second);
      assert r.log[..|s.log|] == prev.log[..|s.log|];
      FramedTrans(s, prev, r, Diffusion, 2 * i, 2);
      SweepStep(s.contents, prev.contents, r.contents, a, b, x0, g, rate, i);
      i := i + 1;
    }
  }

  /** The contents after one more diffusion iteration, given those after `i`. */
  lemma SweepStep(c: Contents, prev: Contents, r: Contents, a: TexId, b: TexId,
                  x0: Content, g: Content, rate: Rate, i: nat)
    requires a != b && c[b] == g
    requires i == 0 ==> prev == c
    requires i > 0 ==> prev == c[a := Sweep(x0, g, rate, 2 * i - 1)][b := Sweep(x0, g, rate, 2 * i)]
    requires var h := Diffuse(x0, prev[b], rate); r == prev[a := h][b := Diffuse(x0, h, rate)]
    ensures r == c[a := Sweep(x0, g, rate, 2 * i + 1)][b := Sweep(x0, g, rate, 2 * i + 2)]
  {
    assert prev[b] == Sweep(x0, g, rate, 2 * i);
    SweepLast(x0, g, rate, 2 * i);
    SweepLast(x0, g, rate, 2 * i + 1);
    if i > 0 {
      OverwriteBoth(c, a, b, Sweep(x0, g, rate, 2 * i - 1), Sweep(x0, g, rate, 2 * i),
                    Sweep(x0, g, rate, 2 * i + 1), Sweep(x0, g, rate, 2 * i + 2));
    }
  }

  /** SetTexture V_in, D_in, D_out and Dispatch(Advection): `out` receives
      the field in `src` moved along the velocity in `vel`. */
  method AdvectPass(s: State, vel: Slot, src: Slot, out: Slot) returns (r: State)
    requires Valid(s) && out != vel && out != src
    ensures Framed(s, r, Advection, 1) && r.uniforms == s.uniforms
    ensures r.log[|s.log|] == Launch(Advection, [Tex(s, vel), Tex(s, src)], Tex(s, out))
    ensures r.contents == s.contents[Tex(s, out) := Advect(Get(s, vel), Get(s, src))]
  {
    var s1 := SetTexture(s, Advection, VIn, vel);
    var s2 := SetTexture(s1, Advection, DIn, src);
    var s3 := SetTexture(s2, Advection, DOut, out);
    SlotsDistinct(s, out, vel);
    SlotsDistinct(s, out, src);
    DispatchKeepsValid(s3, Advection);
    r := Dispatch(s3, Advection).value;
  }

  /** SetTexture V_in, H_out and Dispatch(ProjectionSetup), with whatever
      `h` is current. */
  method ProjectionSetupPass(s: State, vel: Slot, out: Slot) returns (r: State)
    requires Valid(s) && vel != out
    ensures Framed(s, r, ProjectionSetup, 1) && r.uniforms == s.uniforms
    ensures r.contents == s.contents[Tex(s, out) := ProjSetup(Get(s, vel), s.uniforms.h)]
  {
    var s1 := SetTexture(s, ProjectionSetup, VIn, vel);
    var s2 := SetTexture(s1, ProjectionSetup, HOut, out);
    SlotsDistinct(s, vel, out);
    DispatchKeepsValid(s2, ProjectionSetup);
    r := Dispatch(s2, ProjectionSetup).value;
  }

  /** SetTexture H_in, V_out and Dispatch(ProjectionFinish): the velocity in
      `vel` is corrected in place by the potential in `pot`, with the current `h`. */
  method ProjectionFinishPass(s: State, pot: Slot, vel: Slot) returns (r: State)
    requires Valid(s) && pot != vel
    ensures Framed(s, r, ProjectionFinish, 1) && r.uniforms == s.uniforms
    ensures r.contents ==
      s.contents[Tex(s, vel) := ProjFinish(Get(s, pot), Get(s, vel), s.uniforms.h)]
  {
    var s1 := SetTexture(s, ProjectionFinish, HIn, pot);
    var s2 := SetTexture(s1, ProjectionFinish, VOut, vel);
    SlotsDistinct(s, pot, vel);
    DispatchKeepsValid(s2, ProjectionFinish);
    r := Dispatch(s2, ProjectionFinish).value;
  }

  /** Half an iteration of the projection relaxation: SetTexture H_in and
      H_out, Dispatch(Projection), then copy the result back over the input,
      so both buffers hold the relaxed potential. */
  method RelaxHalfStep(s: State, src: Slot, dst: Slot) returns (r: State)
    requires Valid(s) && src != dst
    ensures Framed(s, r, Projection, 1) && r.uniforms == s.uniforms
    ensures r.log[|s.log|] == Launch(Projection, [Tex(s, src)], Tex(s, dst))
    ensures var c := Relax(Get(s, src));
      r.contents == s.contents[Tex(s, src) := c][Tex(s, dst) := c]
  {
    SlotsDistinct(s, src, dst);
    var s1 := SetTexture(s, Projection, HIn, src);
    var s2 := SetTexture(s1, Projection, HOut, dst);
    DispatchKeepsValid(s2, Projection);
    var s3 := Dispatch(s2, Projection).value;
    r := CopyTexture(s3, dst, src);
  }

  /** One iteration of the projection relaxation (Assets/Fluid2.cs:396-404):
      relax `a` into `b` and copy back, then relax `b` into `a` and copy back.
      Both buffers end with the doubly relaxed contents of `a`. */
  method RelaxIteration(s: State, a: Slot, b: Slot) returns (r: State)
    requires Valid(s) && a != b
    ensures Framed(s, r, Projection, 2) && r.uniforms == s.uniforms
    ensures var c := Relax(Relax(Get(s, a)));
      r.contents == s.contents[Tex(s, a) := c][Tex(s, b) := c]
  {
    var s1 := RelaxHalfStep(s, a, b);
    r := RelaxHalfStep(s1, b, a);
    FramedTrans(s, s1, r, Projection, 1, 1);
  }

  /** The projection relaxation loop of `n` iterations: afterwards both
      buffers hold the potential of `a` relaxed `2 n` times. */
  method RelaxLoop(s: State, a: Slot, b: Slot, n: nat) returns (r: State)
    requires Valid(s) && a != b
    ensures Framed(s, r, Projection, 2 * n) && r.uniforms == s.uniforms
    ensures n == 0 ==> r.contents == s.contents
    ensures var c := RelaxN(Get(s, a), 2 * n);
      n > 0 ==> r.contents == s.contents[Tex(s, a) := c][Tex(s, b) := c]
  {
    ghost var c := Get(s, a);
    ghost var ta, tb := Tex(s, a), Tex(s, b);
    SlotsDistinct(s, a, b);
    r := s;
    var i := 0;
    while i < n
      invariant 0 <= i <= n
      invariant Framed(s, r, Projection, 2 * i) && r.uniforms == s.uniforms
      invariant i == 0 ==> r.contents == s.contents
      invariant i > 0 ==> r.contents == s.contents[ta := RelaxN(c, 2 * i)][tb := RelaxN(c, 2 * i)]
    {
      ghost var prev := r;
      r := RelaxIteration(r, a, b);
      FramedTrans(s, prev, r, Projection, 2 * i, 2);
      RelaxLast(c, 2 * i);
      RelaxLast(c, 2 * i + 1);
      i := i + 1;
    }
  }

  lemma OverwriteBoth(c: Contents, a: TexId, b: TexId, x: Content, y: Content, x': Content, y': Content)
    requires a != b
    ensures c[a := x][b := y][a := x'][b := y'] == c[a := x'][b := y']
  {
  }
}

=== FILE: simulation.dfy ===
/** The MonoBehaviour side of Fluid2: texture allocation at start-up
    (Assets/Fluid2.cs:146-179), the per-frame Update with its mode keys and
    mouse-button gating (Assets/Fluid2.cs:216-258), and runs of many frames. */
module Simulation {
  import opened Numeric
  import opened Geometry
  import opened Buffers
  import opened Modes
  import opened Gpu
  import opened Passes
  import opened Fluid

  /** The fields of Fluid2 that Update reads and writes. */
  datatype Sim = Sim(gpu: State, mode: Mode, running: bool)

  /** What Unity's Input reports during one frame: the mode keys pressed
      down and whether mouse buttons 0 and 1 are held. */
  datatype FrameInput = FrameInput(keys: Keys, button0: bool, button1: bool)

  /** Components requested for each slot: density and temperature have one,
      velocity and fuel two, the colour buffers four. */
  function Components(sl: Slot): nat {
    if sl <= D3 then 1
    else if sl <= V3 then 2
    else if sl <= T3 then 1
    else if sl <= F3 then 2
    else 4
  }

  /** The colour buffers are sized to the screen; the rest use the grid. */
  predicate ScreenSized(sl: Slot) {
    sl == Color1 || sl == Color2
  }

  /** The texture state right after the sixteen textures are created: each
      slot references its own texture, all zero, nothing bound yet. */
  function Blank(): (s: State)
    ensures Valid(s)
    ensures forall sl: Slot :: Get(s, sl) == Zero
  {
    State(seq(TextureCount, i => i), seq(TextureCount, _ => Zero), map[], NoUniforms, [])
  }

  /** AllocateTextureBuffers (Assets/Fluid2.cs:146-179): one AllocateBuffer
      per slot in slot order, then CreateVelocityField seeds V1 and then V2.
      The simulation buffers take the grid size; the colour buffers ask for
      the screen size, and a zero screen height falls back to the grid
      height. A zero screen width never gets that far: the grid height
      divides by it (Assets/Fluid2.cs:78) on the first call. Only V1 and V2
      end up non-zero; the two dispatches are the whole log. */
  method AllocateTextureBuffers(grid: Size, screen: Size) returns (descs: seq<Desc>, s: State)
    requires screen.width != 0
    ensures |descs| == TextureCount
    ensures forall sl: Slot :: Components(sl) == Channels(descs[sl].format)
    ensures forall sl: Slot :: !ScreenSized(sl) ==> descs[sl].width == grid.width && descs[sl].height == grid.height
    ensures forall sl: Slot :: ScreenSized(sl) ==>
              descs[sl].width == screen.width &&
              descs[sl].height == (if screen.height != 0 then screen.height else grid.height)
    ensures Valid(s)
    ensures Get(s, V1) == Seeded && Get(s, V2) == Seeded
    ensures forall sl: Slot :: sl != V1 && sl != V2 ==> Get(s, sl) == Zero
    ensures s.log == [Launch(CreateVelocityField, [], Tex(s, V1)),
                      Launch(CreateVelocityField, [], Tex(s, V2))]
  {
    descs := [];
    for i := 0 to TextureCount
      invariant |descs| == i
      invariant forall sl: Slot :: sl < i ==> Components(sl) == Channels(descs[sl].format)
      invariant forall sl: Slot :: sl < i && !ScreenSized(sl) ==>
                  descs[sl].width == grid.width && descs[sl].height == grid.height
      invariant forall sl: Slot :: sl < i && ScreenSized(sl) ==>
                  descs[sl].width == screen.width &&
                  descs[sl].height == (if screen.height != 0 then screen.height else grid.height)
    {
      var w, h := 0, 0;
      if ScreenSized(i) {
        w, h := screen.width, screen.height;
      }
      var d := AllocateBuffer(Components(i), w, h, grid);
      descs := descs + [d];
    }
    var s0 := Blank();
    var s1 := SetTexture(s0, CreateVelocityField, VIn, V1);
    var s2 := Dispatch(s1, CreateVelocityField).value;
    var s3 := SetTexture(s2, CreateVelocityField, VIn, V2);
    s := Dispatch(s3, CreateVelocityField).value;
    DispatchKeepsValid(s1, CreateVelocityField);
    DispatchKeepsValid(s3, CreateVelocityField);
    assert s.log == s2.log + [s.log[1]];
  }

  /** The source strengths of temperature, fuel, density and velocity, in
      the order Update runs the phases. */
  function Strengths(mode: Mode, i: FrameInput): (Strength, Strength, Strength, Strength) {
    (SourceStrength(TempField, mode, i.button0, i.button1),
     SourceStrength(FuelField, mode, i.button0, i.button1),
     SourceStrength(DensityField, mode, i.button0, i.button1),
     SourceStrength(VelocityField, mode, i.button0, i.button1))
  }

  /** Update (Assets/Fluid2.cs:216-258). A stopped simulation does nothing.
      Otherwise the mode keys are read first, so the four phases already
      see the new mode; the frame then runs all four phases and EndUpdate,
      appending its launches to the log. */
  method Update(sim: Sim, i: FrameInput) returns (next: Sim)
    requires Valid(sim.gpu)
    ensures !sim.running ==> next == sim
    ensures sim.running ==> next.running && next.mode == NextMode(sim.mode, i.keys)
    ensures sim.running ==> Valid(next.gpu) && |next.gpu.log| == |sim.gpu.log| + FrameLaunches
    ensures next.gpu.log[..|sim.gpu.log|] == sim.gpu.log
    ensures sim.running ==> next.gpu.slots == Rotate(sim.gpu.slots)
    ensures sim.running ==>
              var (st, sf, sd, sv) := Strengths(next.mode, i);
              TickDone(sim.gpu, next.gpu, st, sf, sd, sv)
  {
    if !sim.running {
      return sim;
    }
    var mode := NextMode(sim.mode, i.keys);
    var (st, sf, sd, sv) := Strengths(mode, i);
    var gpu := Tick(sim.gpu, st, sf, sd, sv);
    next := Sim(gpu, mode, true);
  }

  /** The mode after the mode keys of a sequence of frames. */
  function ModeAfter(mode: Mode, inputs: seq<FrameInput>): Mode
    decreases |inputs|
  {
    if |inputs| == 0 then mode
    else NextMode(ModeAfter(mode, inputs[..|inputs| - 1]), inputs[|inputs| - 1].keys)
  }

  /** The mode after several frames is the starting mode or the one selected
      in some frame: no other mode can appear. */
  lemma {:induction false} ModeAfterSelected(mode: Mode, inputs: seq<FrameInput>)
    ensures var m := ModeAfter(mode, inputs);
            m == mode || exists k :: 0 <= k < |inputs| && Selects(inputs[k].keys, m)
  {
    if |inputs| > 0 {
      var init := inputs[..|inputs| - 1];
      var last := inputs[|inputs| - 1];
      ModeAfterSelected(mode, init);
      var m := ModeAfter(mode, inputs);
      if exists n :: Selects(last.keys, n) {
        assert Selects(inputs[|inputs| - 1].keys, m);
      } else if m != mode {
        var k :| 0 <= k < |init| && Selects(init[k].keys, m);
        assert inputs[k] == init[k];
      }
    }
  }

  /** Runs Update once per input. F1 is never written, so the fuel a frame
      starts from is the one the run started from; D1/D2 and T1/T2 change
      places every frame, so after an even number of frames every slot is
      back on its own texture. */
  method Run(sim: Sim, inputs: seq<FrameInput>) returns (r: Sim)
    requires Valid(sim.gpu)
    ensures Valid(r.gpu) && r.running == sim.running
    ensures r.mode == (if sim.running then ModeAfter(sim.mode, inputs) else sim.mode)
    ensures Get(r.gpu, F1) == Get(sim.gpu, F1)
    ensures |r.gpu.log| == |sim.gpu.log| + (if sim.running then |inputs| * FrameLaunches else 0)
    ensures r.gpu.log[..|sim.gpu.log|] == sim.gpu.log
    ensures r.gpu.slots == if sim.running && |inputs| % 2 == 1 then Rotate(sim.gpu.slots) else sim.gpu.slots
  {
    r := sim;
    for k := 0 to |inputs|
      invariant Valid(r.gpu) && r.running == sim.running
      invariant r.mode == (if sim.running then ModeAfter(sim.mode, inputs[..k]) else sim.mode)
      invariant Get(r.gpu, F1) == Get(sim.gpu, F1)
      invariant |r.gpu.log| == |sim.gpu.log| + (if sim.running then k * FrameLaunches else 0)
      invariant r.gpu.log[..|sim.gpu.log|] == sim.gpu.log
      invariant r.gpu.slots == if sim.running then RotateN(sim.gpu.slots, k) else sim.gpu.slots
    {
      assert inputs[..k + 1][..k] == inputs[..k];
      assert (k + 1) * FrameLaunches == k * FrameLaunches + FrameLaunches;
      ghost var prev := r.gpu.log;
      r := Update(r, inputs[k]);
      PrefixTrans(sim.gpu.log, prev, r.gpu.log);
    }
    assert inputs[..|inputs|] == inputs;
    RotateParity(sim.gpu.slots, |inputs|);
  }
}

=== FILE: wrappers.dfy ===
/** The result of an operation that can fail: a kernel dispatched with a
    parameter that was never bound, or an array allocated with a negative
    length. */
module Wrappers {

  datatype Result<+T, +E> = Success(value: T) | Failure(error: E)
}
